=== FILE: README.md ===
# File manager core, modelled in Dafny

The File System Manager is a Streamlit page. You type a directory and a
command in plain language ("organize files by type"). A language model turns
the command into a JSON plan of file operations. After you confirm, the page
runs the plan against the directory and keeps a log of what happened. All of
the logic sits in `backend/file_manager.py`. This project models its core:

- **Snapshot** (`list_directory_contents`, `get_file_type`, `format_size`).
  The immediate children of the directory are split into folders and regular
  files. A file carries its coarse MIME type and a human-readable size.
- **Prompt** (the f-string of `process_command_with_gemini`). This is the
  exact text sent to the model.
- **Plan extraction** (the rest of `process_command_with_gemini`):
  - a blank command is refused;
  - the greedy pattern `\{[\s\S]*\}` cuts the JSON object out of the reply;
  - every failure becomes a plan with no operations.
- **Executor** (`execute_file_operations`). It runs `create_folder`, `move`,
  `rename`, `delete` and `organize_by_type` in order, against a modelled disk:
  - one exception never stops the later operations;
  - an unknown action does nothing.
- **Session state** (`initialize_app`, the log extension after execution and
  "Clear Log").

## Modules

Each module is one `.dfy` file:

- `Paths` models `os.path.join` and `os.path.dirname`. It also models how the
  operating system resolves a path string against the working directory:
  - resolution is lexical: `""` and `.` are skipped and `..` steps up;
  - nothing confines a joined path to the chosen directory;
  - `AbsoluteEscapes` and `ParentEscapes` show paths that escape it.
- `FileSystem` models the disk as a map from resolved paths to `File(size)`
  and `Dir` nodes.
  - It defines the calls the program makes, with their error cases:
    `os.makedirs(exist_ok=True)`, `os.rename` under POSIX rules,
    `shutil.move` (including a move into an existing directory), `os.remove`,
    `shutil.rmtree`, `os.listdir`, `os.path.isfile` and `os.path.isdir`.
  - The class `Disk` holds the map and changes it in place.
- `Ordering` fixes the order `os.listdir` returns names in.
- `Sizes` models `format_size`:
  - the unit ladder B → KB → MB → GB;
  - `.2f` rendering with exact integer arithmetic, rounding half to even.
- `FileTypes` models `get_file_type` over an abstract `mimetypes` oracle,
  and `str.capitalize`.
- `Snapshot` models `list_directory_contents`.
- `Prompt` holds the prompt template.
- `Command` models `process_command_with_gemini`.
- `Executor` holds the executor's methods and their specification functions:
  - `StepSpec` specifies one operation;
  - `Run` specifies the whole loop;
  - `OrganizeSpec` specifies `organize_by_type`.
- `Operations` holds properties of whole plans and of each single-call
  action.
- `Organize` proves where `organize_by_type` puts every file.
- `Session` models the session state and the operation log.

Inputs the program does not control are parameters:

- `mime` gives a MIME type guess, or `None`, for a path string.
- `model` gives the reply text, or the message of the exception it raised.
- `decode` gives the parsed plan, or the JSON error message.

## Model

| member | source | states |
|---|---|---|
| `Paths.JoinPlainName` | backend/file_manager.py:43 | joining a plain entry name onto a directory string names that entry inside the directory the string resolves to |
| `Paths.AbsoluteEscapes` | backend/file_manager.py:133 | an absolute source or destination discards the chosen directory: nothing keeps operations inside it |
| `Paths.ParentEscapes` | backend/file_manager.py:138-139 | a `../name` source or destination resolves outside the chosen directory |
| `Paths.JoinNested` | backend/file_manager.py:139 | joining `folder/name` equals joining `folder` and then `name` |
| `Paths.DirnameJoin` | backend/file_manager.py:142 | the directory part of `join(d, name)` is `d` itself, for a directory string without a trailing slash |
| `Paths.JoinSplit` | backend/file_manager.py:133 | splitting a path string at its slashes and joining the pieces gives the string back |
| `Paths.PathJoin` | backend/file_manager.py:133 | an absolute second part replaces the first; otherwise the result begins with the first part; a non-empty second part gives a non-empty path |
| `Paths.Dirname` | backend/file_manager.py:142 | the directory part is a prefix of the path, and it is empty exactly when the path has no slash |
| `FileSystem.Makedirs` | backend/file_manager.py:134 | on success the path is a directory, every old entry is kept, and every new entry is a directory at or above the path |
| `FileSystem.MakedirsFails` | backend/file_manager.py:134 | on a tree, `makedirs(exist_ok=True)` raises exactly when the path or one of its ancestors is a file |
| `FileSystem.MakedirsWellFormed` | backend/file_manager.py:134 | `makedirs` keeps the disk a tree, and on an existing directory it changes nothing |
| `FileSystem.RemoveTree` | backend/file_manager.py:156-158 | removal deletes exactly the entry and everything below it and leaves every other entry unchanged |
| `FileSystem.RemoveTreeWellFormed` | backend/file_manager.py:156-158 | removing a subtree keeps the disk a tree |
| `FileSystem.RenameTree` | backend/file_manager.py:150 | a rename that succeeds had an existing source and did not nest source and destination; renaming onto itself changes nothing; a directory renamed below itself fails with `[Errno 22] Invalid argument`, a file renamed below itself with `Not a directory` |
| `FileSystem.RenameTreeWellFormed` | backend/file_manager.py:150 | a rename that succeeds keeps the disk a tree |
| `FileSystem.RenameFile` | backend/file_manager.py:150 | a file renamed onto a free place or onto another file in an existing directory sits at the new place with its contents, and nothing else changes |
| `FileSystem.MoveTree` | backend/file_manager.py:144 | when the destination is not a directory, `shutil.move` succeeds exactly when the rename does, and then as the rename does; a move that succeeds had an existing source |
| `FileSystem.MoveByRename` | backend/file_manager.py:144 | `shutil.move` onto a target succeeds exactly when renaming to it does, with the same result; a directory moved below itself fails with `Cannot move a directory … into itself` |
| `FileSystem.DirectoryIntoItself` | backend/file_manager.py:144-150 | a directory sent below itself: `os.rename` fails with `[Errno 22] Invalid argument`, `shutil.move` with `Cannot move a directory … into itself` |
| `FileSystem.BelowAFile` | backend/file_manager.py:144-150 | a file sent below itself: both `os.rename` and `shutil.move` fail with `Not a directory` |
| `FileSystem.DirectoryOntoFile` | backend/file_manager.py:144-150 | a directory sent onto an existing file: `os.rename` fails with `Not a directory`, `shutil.move` (through its copy fallback) with `File exists` |
| `FileSystem.Missing` | backend/file_manager.py:144-150 | definition of the error for a path that names nothing: `Not a directory` when a file lies on the way to it, `No such file or directory` otherwise |
| `FileSystem.SourceBelowAFile` | backend/file_manager.py:144-150 | a source below a file: `os.rename` raises `Not a directory`, and so does `shutil.move` when the destination is not a directory |
| `FileSystem.MoveTreeWellFormed` | backend/file_manager.py:144 | a move that succeeds keeps the disk a tree |
| `FileSystem.ListDirAt` | backend/file_manager.py:38 | listing succeeds exactly on a directory and yields each child name exactly once, in a fixed increasing order |
| `FileSystem.Children` | backend/file_manager.py:38 | the child names of a directory are exactly the names one level below it |
| `FileSystem.ListingOrder` | backend/file_manager.py:38 | the names of a directory are produced one by one in the fixed listing order |
| `FileSystem.Disk.ListDir` | backend/file_manager.py:38 | `os.listdir` on the disk returns the listing, or the error for a missing path (`Not a directory` when a file lies on the way), a file or the empty path |
| `FileSystem.Disk.Makedirs` | backend/file_manager.py:134 | the disk becomes the result of `makedirs` (unchanged when it raises), stays a tree, and the raised error is reported |
| `FileSystem.Disk.Rename` | backend/file_manager.py:150 | the disk becomes the result of `os.rename` (unchanged when it raises), stays a tree, and the raised error is reported |
| `FileSystem.Disk.Move` | backend/file_manager.py:144 | the disk becomes the result of `shutil.move` (unchanged when it raises), stays a tree, and the raised error is reported |
| `FileSystem.Disk.Remove` | backend/file_manager.py:155-158 | `os.remove` of a file or `shutil.rmtree` of a directory deletes that subtree and keeps the disk a tree |
| `FileSystem.OsMakedirs` | backend/file_manager.py:134 | definition of `os.makedirs(s, exist_ok=True)` on a path string: the empty string raises, any other string is resolved and handed to `Makedirs` |
| `FileSystem.OsRename` | backend/file_manager.py:150 | definition of `os.rename` on path strings: an empty string raises, otherwise `RenameTree` of the resolved paths |
| `FileSystem.OsMove` | backend/file_manager.py:144 | definition of `shutil.move` on path strings: an empty string raises, otherwise `MoveTree` of the resolved paths |
| `FileSystem.OsListDir` | backend/file_manager.py:38 | definition of `os.listdir` on a path string: an empty string raises, otherwise `ListDirAt` of the resolved path |
| `FileSystem.OsIsFile` | backend/file_manager.py:44 | definition of `os.path.isfile`: a non-empty string whose resolved path is a regular file |
| `FileSystem.OsIsDir` | backend/file_manager.py:48 | definition of `os.path.isdir`: a non-empty string whose resolved path is a directory |
| `FileSystem.Disk.IsFile` | backend/file_manager.py:44 | definition of `os.path.isfile` on the current disk |
| `FileSystem.Disk.IsDir` | backend/file_manager.py:48 | definition of `os.path.isdir` on the current disk |
| `FileSystem.Disk.Size` | backend/file_manager.py:46 | definition of `os.path.getsize` of a regular file: the size recorded for it |
| `Ordering.EnumerateIncreasing` | backend/file_manager.py:38 | the fixed listing order is strictly increasing, so no name is listed twice |
| `Ordering.LeastExists` | backend/file_manager.py:38 | every non-empty set of names has a first one, so the listing order is defined |
| `Sizes.UnitFrom` | backend/file_manager.py:65-68 | the chosen unit is the first one whose next power of 1024 exceeds the size, or GB |
| `Sizes.UnitIndexBounds` | backend/file_manager.py:65-68 | a non-zero size is at least one of its unit and, below GB, less than 1024 of its unit |
| `Sizes.UnitFromMonotonic` | backend/file_manager.py:65-68 | a larger size never gets a smaller unit |
| `Sizes.RoundHalfEvenNearest` | backend/file_manager.py:67 | the two decimals are the nearest hundredths, ties going to the even one, as `.2f` rounds an exact binary value |
| `Sizes.NatText` | backend/file_manager.py:189 | a count is written in decimal digits without a leading zero |
| `Sizes.NatTextValue` | backend/file_manager.py:189 | the decimal text of a count reads back as that count |
| `Sizes.SizeTextZero` | backend/file_manager.py:63-68 | an empty file is shown as `0.00 B` |
| `Sizes.SizeTextKilo` | backend/file_manager.py:63-68 | 1536 bytes are shown as `1.50 KB` |
| `Sizes.SizeTextGiga` | backend/file_manager.py:63-68 | 1024³ bytes are shown as `1.00 GB` |
| `Sizes.FormatSize` | backend/file_manager.py:63-68 | the loop that divides by 1024 per step renders exactly the size text of the chosen unit |
| `Sizes.SizeText` | backend/file_manager.py:63-68 | definition of the text `format_size` returns: the size in the chosen unit to two decimals, a space, the unit name |
| `FileTypes.MajorType` | backend/file_manager.py:60 | the type token is the part of the MIME type before the first slash, and it has no slash |
| `FileTypes.GetFileType` | backend/file_manager.py:56-61 | no guess, or an empty one, gives `unknown`; otherwise the token before the first slash |
| `FileTypes.Capitalize` | backend/file_manager.py:181 | the first character is upper-cased and the rest lower-cased; the length is kept |
| `FileTypes.CapitalizeIdempotent` | backend/file_manager.py:181 | capitalizing a folder name twice gives the same name |
| `FileTypes.CapitalizeKeepsSlashFree` | backend/file_manager.py:181 | the capitalized type of a slash-free token is a single path component |
| `Snapshot.Names` | backend/file_manager.py:89 | the names of the rows, one per row, in order |
| `Snapshot.Classify` | backend/file_manager.py:42-49 | a listed name is among the files exactly when it is a regular file, and among the folders exactly when it is a directory and not a file; folders carry `folder` and no size; files carry their type and formatted size |
| `Snapshot.SnapshotPartition` | backend/file_manager.py:37-51 | the snapshot of a directory lists every sub-directory among the folders and every regular file among the files, nothing else, with the right type and size |
| `Snapshot.ClassifyPartition` | backend/file_manager.py:42-50 | given the directory's names, the rows are exactly its sub-directories and its regular files |
| `Snapshot.ChildPath` | backend/file_manager.py:43-48 | `isfile` and `isdir` of a joined child name look at that child of the directory |
| `Snapshot.ListDirectoryContents` | backend/file_manager.py:35-54 | the loop builds the snapshot; when listing raises, both lists are empty and the `Error accessing directory: ` message is produced |
| `Snapshot.ListDirectoryContentsSpec` | backend/file_manager.py:35-54 | definition of what `list_directory_contents` returns: the classified listing, or two empty lists when listing raises |
| `Prompt.FileLabels` | backend/file_manager.py:92 | each file is rendered as `name (type)`, in order |
| `Prompt.BuildPrompt` | backend/file_manager.py:83-102 | definition of the prompt: the fixed template filled with the directory, the folder line, the file line and the command |
| `Prompt.JoinHasItems` | backend/file_manager.py:89 | every item occurs in the comma-joined list |
| `Prompt.OccursBetween` | backend/file_manager.py:84-102 | a part pasted into the template occurs in the prompt |
| `Prompt.FillHasValues` | backend/file_manager.py:84-102 | every value filled into the template occurs in the prompt |
| `Prompt.FillDeterminesLast` | backend/file_manager.py:94 | two prompts that agree apart from the user's request agree on the request too |
| `Prompt.PromptCarriesRequest` | backend/file_manager.py:86-94 | the prompt opens with the directory right after the introduction and closes with the user's command between `The user would like to: ` and the instructions; both occur in it |
| `Prompt.PromptListsSnapshot` | backend/file_manager.py:88-92 | the folder line sits between the folder and file headings, and the file line between the file heading and the command's lead-in; every folder name and every `name (type)` file label, or the fixed fallback sentence when a list is empty, occurs in the prompt |
| `Prompt.PromptDeterminesCommand` | backend/file_manager.py:94 | different commands give different prompts |
| `Command.StripLeft` | backend/file_manager.py:72 | leading whitespace is removed and nothing else |
| `Command.StripRight` | backend/file_manager.py:72 | trailing whitespace is removed and nothing else |
| `Command.BlankIffAllSpace` | backend/file_manager.py:72-73 | a command is refused exactly when every character of it is whitespace |
| `Command.Strip` | backend/file_manager.py:72 | definition of `s.strip()`: the leading, then the trailing whitespace removed |
| `Command.IsBlank` | backend/file_manager.py:72 | definition of `not command.strip()` |
| `Command.FirstIndex` | backend/file_manager.py:109-110 | the first occurrence of a character, or none when it does not occur |
| `Command.LastIndex` | backend/file_manager.py:109-110 | the last occurrence of a character, or none when it does not occur |
| `Command.FindSpan` | backend/file_manager.py:109-110 | the pattern matches exactly when some `{` comes before some `}`, and then spans from the first `{` to the last `}` |
| `Command.EmbeddedObjectRecovered` | backend/file_manager.py:109-114 | an object wrapped in prose without other braces is cut out exactly |
| `Command.JsonText` | backend/file_manager.py:109-110 | definition of `match.group(0)` for `\{[\s\S]*\}`: the text from the first `{` to the last `}`, or nothing |
| `Command.ExtractPlan` | backend/file_manager.py:104-120 | definition of the plan a reply leads to: the decoded object, or an empty plan with the fixed or `Error processing command: ` explanation |
| `Command.ExtractPlanOutcomes` | backend/file_manager.py:104-120 | extraction never raises, and each branch gives its own plan: a failed call gives the empty plan with `Error processing command: ` and the error; a reply without a braced object gives the empty plan that says it did not understand; otherwise the decoded object is the plan, or a decoding error gives the empty plan with `Error processing command: ` and that error |
| `Command.ProcessCommand` | backend/file_manager.py:70-120 | a blank command gets `Please enter a command.` without listing, warning or asking the model; otherwise the model is asked exactly the prompt built from the snapshot, its reply becomes a plan, and the `Error accessing directory: ` warning is produced exactly when listing the directory fails |
| `Command.ProcessCommandSpec` | backend/file_manager.py:70-120 | definition of what `process_command_with_gemini` returns: the notice for a blank command, otherwise the plan extracted from the reply to the snapshot prompt |
| `Executor.RegularFiles` | backend/file_manager.py:163 | the names kept are exactly the listed names that are regular files |
| `Executor.Types` | backend/file_manager.py:167-169 | the type of each file, in order |
| `Executor.TypeOrder` | backend/file_manager.py:166-174 | the dictionary's keys are exactly the types met, each once |
| `Executor.FilesOfType` | backend/file_manager.py:171-174 | a type's group holds exactly the files of that type |
| `Executor.StepSpec` | backend/file_manager.py:126-192 | definition of one operation: each action's calls, its success line or its `Error during <action>: ` line, and nothing for an unknown action |
| `Executor.Run` | backend/file_manager.py:124-194 | definition of `execute_file_operations`: the operations in order, each on the disk the previous one left, their lines in order |
| `Executor.RunFrom` | backend/file_manager.py:126-192 | definition of the rest of a run: one operation's lines, then the lines of the remaining operations run on the disk it left |
| `Executor.MoveAll` | backend/file_manager.py:184-187 | definition of moving one type's files into its folder, one by one, stopping at the first failure |
| `Executor.PlaceGroup` | backend/file_manager.py:181-187 | definition of placing one type: `makedirs` of the capitalized folder, then moving its files |
| `Executor.PlaceGroups` | backend/file_manager.py:177-189 | definition of the group loop: `unknown` skipped, one summary line per placed type, the first failure ending the action with its error line |
| `Executor.OrganizeSpec` | backend/file_manager.py:161-189 | definition of `organize_by_type`: list, keep the regular files, group them by type in first-met order, place the groups; a listing error is reported |
| `Executor.ExecuteFileOperations` | backend/file_manager.py:122-194 | the loop runs the operations in order, each on the disk the previous one left, and returns their lines in order |
| `Executor.ApplyOperation` | backend/file_manager.py:126-192 | one operation with its `try`: each action's calls, its success line or its `Error during <action>: ` line, and nothing for an unknown action |
| `Executor.OrganizeByType` | backend/file_manager.py:161-189 | `organize_by_type` lists, groups and places the files as `OrganizeSpec` says, or reports the listing error |
| `Executor.SelectFiles` | backend/file_manager.py:163 | the comprehension keeps the regular files, in listing order |
| `Executor.GroupByType` | backend/file_manager.py:166-174 | the dictionary maps each type met to its files in listing order, and its keys keep the order types were first met |
| `Executor.GroupStep` | backend/file_manager.py:171-174 | one more file extends its type's group and adds the type to the keys only the first time |
| `Executor.GroupUpdate` | backend/file_manager.py:171-174 | updating the dictionary for one more file keeps it equal to the grouping of the files seen so far |
| `Executor.PlaceByType` | backend/file_manager.py:177-189 | the loop over the dictionary skips `unknown`, places each group with a summary line, and stops at the first failure |
| `Executor.PlaceGroupOf` | backend/file_manager.py:181-187 | a group's folder is made, then its files are moved, stopping at the first failure |
| `Executor.MoveFiles` | backend/file_manager.py:184-187 | the files are moved into the folder one by one, stopping at the first failure |
| `Operations.RunAppend` | backend/file_manager.py:126 | operations run in list order: a plan is its first part followed by the rest, run on the disk the first part left |
| `Operations.UnknownActionSkipped` | backend/file_manager.py:126-192 | an unknown action anywhere in a plan changes nothing and reports nothing |
| `Operations.OneLinePerCall` | backend/file_manager.py:131-192 | each single-call action reports exactly one line: its success line or its `Error during <action>: ` line |
| `Operations.LinePerOperation` | backend/file_manager.py:126-192 | errors are isolated: without `organize_by_type`, every single-call operation reports one line whatever the earlier ones raised |
| `Operations.CreateFolderStable` | backend/file_manager.py:132-135 | running `create_folder` on the disk it left gives the same disk and the same line |
| `Operations.CreateFolderTwice` | backend/file_manager.py:132-135 | `create_folder` twice reports `Created folder: ` twice and leaves the disk as once |
| `Operations.CreateFolderOutcome` | backend/file_manager.py:132-135 | `create_folder` succeeds exactly when the joined path is non-empty and has no file at or above it; then the folder exists, old entries are kept and only directories are added |
| `Operations.DeleteOutcome` | backend/file_manager.py:153-159 | `delete` always reports `Deleted: <source>`; it removes an existing file or directory with its subtree, changes nothing when the source names nothing, and keeps the disk a tree |
| `Operations.RenameFileOutcome` | backend/file_manager.py:147-151 | renaming a file to a free place in an existing directory moves just that file and reports `Renamed: a → b` |
| `Operations.RenameMissingOutcome` | backend/file_manager.py:147-151 | renaming a missing source changes nothing and reports the `Error during rename: ` line: `Not a directory` when a file lies on the way to the source, `No such file or directory` otherwise |
| `Operations.MoveIntoFolderOutcome` | backend/file_manager.py:137-145 | moving a file to `folder/name` creates the folder if missing, puts the file there with its contents, reports `Moved: a → b`, and keeps every other entry |
| `Operations.MoveFileInto` | backend/file_manager.py:142-144 | on the disk: `makedirs` of the parent folder succeeds and the following move puts the file inside it |
| `Organize.RegularFilesDistinct` | backend/file_manager.py:163 | the files to organize are listed once each |
| `Organize.FilesOfTypeDistinct` | backend/file_manager.py:174 | a type's group holds each file once |
| `Organize.OrganizeOutcome` | backend/file_manager.py:161-189 | with nothing in the way: one summary line per known type in dictionary order and no error; every regular file of a known type sits in `<Type>/<name>` with its contents; every other entry is unchanged; only type folders and moved files are added |
| `Organize.ListedFiles` | backend/file_manager.py:163 | the listing succeeds, and the regular files it yields are exactly those of the directory, once each |
| `Organize.PlaceGroupsStep` | backend/file_manager.py:177-189 | placing the remaining groups succeeds, with one `Moved n type files to Type folder` line per known type |
| `Organize.PlaceGroupStep` | backend/file_manager.py:181-187 | one type's folder is made and all its files are moved without error |
| `Organize.MoveAllStep` | backend/file_manager.py:184-187 | moving one type's files one after another raises nothing and puts each in the type folder |
| `Organize.MakeFolderStep` | backend/file_manager.py:181-182 | making a type folder raises nothing and leaves it a directory |
| `Organize.MoveStep` | backend/file_manager.py:185-187 | moving one file into its existing type folder raises nothing and puts it at `<Type>/<name>` |
| `Organize.NextGroup` | backend/file_manager.py:177-179 | after a known type's group is placed, its files are done and it is no longer pending |
| `Organize.SkipUnknown` | backend/file_manager.py:178-179 | skipping the `unknown` group changes which files are done in no way |
| `Organize.PlacedFinally` | backend/file_manager.py:161-189 | once every group is placed, every file of a known type has moved and nothing else changed |
| `Session.SessionState.constructor` | backend/file_manager.py:14-17 | a new session has neither entry |
| `Session.SessionState.InitializeApp` | backend/file_manager.py:12-17 | each missing entry is set to its empty value; an existing one is kept |
| `Session.SessionState.LogResults` | backend/file_manager.py:293 | the executed plan's lines are appended to the log, in order |
| `Session.SessionState.ClearLog` | backend/file_manager.py:311-312 | "Clear Log" empties the log and keeps the selected directory |

## Left out

- The Streamlit page is not modelled: `select_directory`, the rendering in
  `main`, buttons, spinners and reruns (lines 19-33, 196-316). Two things
  follow from this:
  - For a blank command, `main` calls `.get` on the returned string (line 265).
    Python raises there. That call is not modelled.
  - The model assumes `initialize_app` has already run before the log is
    extended or cleared. `main` calls it first (line 205).
- The Gemini client and the API key (lines 9-10, 105-106, 211-217) are not
  modelled. The reply is the parameter `model`.
- `mimetypes.guess_type` (line 58) is the parameter `mime`. It sees the joined
  path string.
- JSON decoding (line 114) is the parameter `decode`. So are the defaults of
  `op.get(...)` for missing keys (lines 127-129).
- A plan entry that is not a dictionary raises `AttributeError` at line 127.
  That exception is outside the `try` and ends the whole run. It is not
  modelled: an operation always has its three fields.
- `format_size` divides floats. The model's exact integer arithmetic agrees
  only while the size fits the 53-bit mantissa.
- Error messages:
  - `ErrorText` shows the resolved absolute path. Python shows the path
    string as it was passed.
  - `os.rename` and `shutil.move` messages with two file names, other than
    `[Errno 22] Invalid argument`, are simplified to one.
- Path resolution is lexical. Symbolic links, permissions, other file kinds,
  devices and cross-device moves are not modelled. Only regular files and
  directories exist.
- Lexical resolution drops empty and `.` pieces and lets `..` cancel the piece
  before it. The operating system walks the path instead. The model therefore
  differs in these cases:
  - A trailing slash after a file name (`a.txt/`). Python's `isfile` and
    `isdir` are both false, so `delete` removes nothing and still reports
    `Deleted:`; `move` and `rename` fail with `Not a directory`. The model
    treats `a.txt/` as `a.txt`.
  - `delete` of `.` or of `sub/.`. `rmtree` empties the directory and then
    fails to remove `.` with `[Errno 22] Invalid argument`, so the line is
    an error. The model removes the directory and reports `Deleted: .`.
  - A `..` after a piece that is missing or is a file. The system fails with
    `No such file or directory` or `Not a directory`; the model cancels the
    two pieces. For `create_folder` with `x/../y` and `x` missing,
    `os.makedirs` creates both `x` and `y`; the model creates only `y`.
  - A `move` whose source ends in `/.` onto an existing directory.
    `shutil.move` takes the source's last piece, `.`, so the target is the
    destination itself and it raises `Destination path '<dst>/.' already
    exists`. The model moves the directory in under its own name.

  Other differences of the same kind may exist; the list is not exhaustive.
- The fields of an operation (`Command.Operation`) are strings.
  In the program they are whatever JSON value the reply holds. A number,
  `null`, list or object in `source` or `destination` makes `os.path.join`
  raise `TypeError` inside the `try`, which reports
  `Error during <action>: expected str, bytes or os.PathLike object, …` for
  that operation. A non-string `action` matches no branch and is reported
  as an unknown action in its printed form. A plan of such values cannot be
  expressed in the model.
- `os.listdir` order is up to the operating system. The model fixes
  code-point order. That order decides:
  - the order of snapshot rows and of the names in the prompt;
  - the order of `organize_by_type` summary lines;
  - since `organize_by_type` stops at its first error, which type groups
    and which files inside a group have moved by then, and which error
    line it reports.
- `Capitalize`: ASCII-only upper and lower case. Python's `str.capitalize`
  also maps other Unicode letters.
- `Command.ProcessCommand`: the snapshot warning (`st.error`) is returned as
  a value, not displayed.
- `Organize.OrganizeOutcome`: proved only when nothing is in the way:
  - every known type capitalizes to a plain name;
  - no type folder is a file;
  - no destination is taken.

  Otherwise it is specified by `OrganizeSpec` alone (first error stops the
  action).
- `Operations.MoveIntoFolderOutcome`: covers a file moved to
  `<folder>/<name>` where nothing is at that name yet. Other `move` forms are
  specified by `StepSpec` alone. These are a directory source, a destination
  that is an existing directory, a plain-name destination (whose `dirname`
  is the working directory itself), deeper destinations, and a destination
  that replaces an existing file.
- `Operations.RenameFileOutcome`: covers a file source. A directory rename is
  specified by `RenameTree` alone.
- `Operations.LinePerOperation`: counts lines only for plans without
  `organize_by_type`. That action reports one line per known type, or stops
  with one error line.

=== FILE: command.dfy ===
/**
 * `process_command_with_gemini`: from the user's command to a plan of file
 * operations.
 *
 * A blank command is refused before anything else. Otherwise the directory
 * is snapshotted, the prompt is sent to the language model, and the greedy
 * pattern `\{[\s\S]*\}` cuts the JSON object out of the reply: from the
 * first `{` to the last `}` after it. The model and the JSON decoder are not
 * part of this model; they are the parameters `model` (the reply text or the
 * message of the exception it raised) and `decode` (the plan, or the
 * decoder's error message).
 */
module Command {
  import opened Wrappers
  import opened Paths
  import opened FileSystem
  import opened Snapshot
  import opened Prompt

  /** One requested operation: `{"action": …, "source": …, "destination": …}`. */
  datatype Operation = Operation(action: string, source: string, destination: string)

  /** `{"operations": [...], "explanation": …}`. */
  datatype Plan = Plan(operations: seq<Operation>, explanation: string)

  /** What the function hands back: a plain message, or a plan. */
  datatype Answer = Notice(message: string) | Planned(plan: Plan)

  const NotUnderstood := "I couldn't understand how to process that request. Please try a different command."
  const ErrorPrefix := "Error processing command: "
  const EnterCommand := "Please enter a command."

  // ---------------------------------------------------------------------
  // `str.strip()` and the blank command

  /** The characters `str.strip()` removes: Python's whitespace. */
  predicate IsSpace(c: char) {
    var n := c as int;
    || n == 0x20 || (0x09 <= n <= 0x0D) || (0x1C <= n <= 0x1F)
    || n == 0x85 || n == 0xA0 || n == 0x1680 || (0x2000 <= n <= 0x200A)
    || n == 0x2028 || n == 0x2029 || n == 0x202F || n == 0x205F || n == 0x3000
  }

  function StripLeft(s: string): (r: string)
    ensures |r| <= |s| && r == s[|s| - |r|..]
    ensures r == [] || !IsSpace(r[0])
    ensures forall i :: 0 <= i < |s| - |r| ==> IsSpace(s[i])
  {
    if s != [] && IsSpace(s[0]) then StripLeft(s[1..]) else s
  }

  function StripRight(s: string): (r: string)
    ensures |r| <= |s| && r == s[..|r|]
    ensures r == [] || !IsSpace(r[|r| - 1])
    ensures forall i :: |r| <= i < |s| ==> IsSpace(s[i])
  {
    if s != [] && IsSpace(s[|s| - 1]) then StripRight(s[..|s| - 1]) else s
  }

  /** `s.strip()`. */
  function Strip(s: string): string {
    StripRight(StripLeft(s))
  }

  /** `not command.strip()`. */
  predicate IsBlank(command: string) {
    Strip(command) == ""
  }

  /** A command is blank exactly when every character of it is whitespace. */
  lemma BlankIffAllSpace(command: string)
    ensures IsBlank(command) <==> forall i :: 0 <= i < |command| ==> IsSpace(command[i])
  {
  }

  // ---------------------------------------------------------------------
  // The greedy match of `\{[\s\S]*\}`

  /** The span the pattern matches: from the first `{` to the last `}` after it. */
  function FindSpan(s: string): (r: Option<(nat, nat)>)
    ensures r.None? <==> !exists i, j :: 0 <= i < j < |s| && s[i] == '{' && s[j] == '}'
    ensures r.Some? ==>
              var (i, j) := r.value;
              && 0 <= i < j < |s| && s[i] == '{' && s[j] == '}'
              && (forall k :: 0 <= k < i ==> s[k] != '{')
              && (forall k :: j < k < |s| ==> s[k] != '}')
  {
    match FirstIndex(s, '{')
    case None => None
    case Some(i) =>
      match LastIndex(s, '}')
      case None => None
      case Some(j) =>
        if i < j then Some((i, j))
        else
          assert forall a, b :: 0 <= a < b < |s| && s[a] == '{' && s[b] == '}' ==> i <= a && b <= j;
          None
  }

  function FirstIndex(s: string, c: char): (r: Option<nat>)
    ensures r.None? <==> c !in s
    ensures r.Some? ==> r.value < |s| && s[r.value] == c && forall k :: 0 <= k < r.value ==> s[k] != c
  {
    if s == [] then None
    else if s[0] == c then Some(0)
    else match FirstIndex(s[1..], c)
      case None => None
      case Some(k) => Some(k + 1)
  }

  function LastIndex(s: string, c: char): (r: Option<nat>)
    ensures r.None? <==> c !in s
    ensures r.Some? ==> r.value < |s| && s[r.value] == c && forall k :: r.value < k < |s| ==> s[k] != c
  {
    if s == [] then None
    else if s[|s| - 1] == c then Some(|s| - 1)
    else LastIndex(s[..|s| - 1], c)
  }

  /** `match.group(0)`, when the pattern matches. */
  function JsonText(s: string): Option<string> {
    match FindSpan(s)
    case None => None
    case Some((i, j)) => Some(s[i..j + 1])
  }

  /**
   * A JSON object the model wraps in prose is cut out exactly, as long as
   * the prose before it has no `{` and the prose after it no `}`.
   */
  lemma EmbeddedObjectRecovered(before: string, obj: string, after: string)
    requires '{' !in before && '}' !in after
    requires |obj| >= 2 && obj[0] == '{' && obj[|obj| - 1] == '}'
    ensures JsonText(before + obj + after) == Some(obj)
  {
    var s := before + obj + after;
    var i, j := |before|, |before| + |obj| - 1;
    assert s[i] == '{' && s[j] == '}';
    var (a, b) := FindSpan(s).value;
    assert s[i..j + 1] == obj;
  }

  /** The plan the reply leads to; every failure gives a plan with no operations. */
  function ExtractPlan(reply: Result<string, string>, decode: string -> Result<Plan, string>): Plan {
    match reply
    case Err(e) => Plan([], ErrorPrefix + e)
    case Ok(text) =>
      match JsonText(text)
      case None => Plan([], NotUnderstood)
      case Some(obj) =>
        match decode(obj)
        case Ok(plan) => plan
        case Err(e) => Plan([], ErrorPrefix + e)
  }

  /**
   * Operations only ever come from a decoded object in the reply: a plan
   * with operations is the decoding of the matched text, and a failure
   * explains itself with one of the two fixed messages.
   */
  lemma ExtractPlanOutcomes(reply: Result<string, string>, decode: string -> Result<Plan, string>)
    ensures var p := ExtractPlan(reply, decode);
            || (reply.Ok? && JsonText(reply.value).Some? && decode(JsonText(reply.value).value) == Ok(p))
            || (p.operations == [] && p.explanation == NotUnderstood && reply.Ok? && JsonText(reply.value).None?)
            || (p.operations == [] && |p.explanation| >= |ErrorPrefix| && p.explanation[..|ErrorPrefix|] == ErrorPrefix)
    ensures reply.Err? ==> ExtractPlan(reply, decode) == Plan([], ErrorPrefix + reply.error)
    ensures reply.Ok? && JsonText(reply.value).None? ==> ExtractPlan(reply, decode) == Plan([], NotUnderstood)
    ensures reply.Ok? && JsonText(reply.value).Some? ==>
              match decode(JsonText(reply.value).value)
              case Ok(q) => ExtractPlan(reply, decode) == q
              case Err(e) => ExtractPlan(reply, decode) == Plan([], ErrorPrefix + e)
  {
  }

  // ---------------------------------------------------------------------
  // The whole function

  /** What `process_command_with_gemini` returns, given the disk. */
  ghost function ProcessCommandSpec(t: Tree, cwd: Path, command: string, directory: string,
                                    mime: string -> Option<string>,
                                    model: string -> Result<string, string>,
                                    decode: string -> Result<Plan, string>): Answer
  {
    if IsBlank(command) then Notice(EnterCommand)
    else
      var c := ListDirectoryContentsSpec(t, cwd, directory, mime);
      Planned(ExtractPlan(model(BuildPrompt(directory, c, command)), decode))
  }

  /**
   * Snapshot, prompt, ask, extract. `asked` is the prompt sent to the
   * model, or nothing when the command was blank and the model was not
   * consulted; `warning` is the message shown when the directory could not
   * be listed.
   */
  method ProcessCommand(disk: Disk, command: string, directory: string,
                        mime: string -> Option<string>,
                        model: string -> Result<string, string>,
                        decode: string -> Result<Plan, string>)
    returns (answer: Answer, asked: Option<string>, warning: Option<string>)
    ensures answer == ProcessCommandSpec(disk.nodes, disk.cwd, command, directory, mime, model, decode)
    ensures asked == None <==> IsBlank(command)
    ensures IsBlank(command) ==> warning == None
    ensures !IsBlank(command) ==> (warning == None <==> OsListDir(disk.nodes, disk.cwd, directory).Ok?)
    ensures !IsBlank(command) && OsListDir(disk.nodes, disk.cwd, directory).Err? ==>
              warning == Some("Error accessing directory: " + ErrorText(OsListDir(disk.nodes, disk.cwd, directory).error))
    ensures asked.Some? ==>
              asked.value == BuildPrompt(directory, ListDirectoryContentsSpec(disk.nodes, disk.cwd, directory, mime), command)
              && answer == Planned(ExtractPlan(model(asked.value), decode))
  {
    if Strip(command) == "" {
      return Notice(EnterCommand), None, None;
    }
    var c;
    c, warning := ListDirectoryContents(disk, directory, mime);
    var context := BuildPrompt(directory, c, command);
    answer, asked := Planned(ExtractPlan(model(context), decode)), Some(context);
  }
}

=== FILE: executor.dfy ===
/**
 * `execute_file_operations`: runs a plan's operations one after another
 * inside the chosen directory and reports one line per outcome.
 *
 * Each operation is tried on its own: whatever it raises is caught and
 * reported as `Error during <action>: <message>`, and the next operation
 * runs on the disk as the failed one left it. An action the program does
 * not know does nothing and reports nothing.
 */
module Executor {
  import opened Wrappers
  import opened Paths
  import opened FileSystem
  import opened FileTypes
  import opened Sizes
  import opened Command

  /** The disk after some operations, and the lines they reported. */
  datatype Outcome = Outcome(tree: Tree, lines: seq<string>)

  /** A run of calls that either finished or stopped at the first exception. */
  datatype Step = Done(tree: Tree) | Failed(tree: Tree, error: FsError)

  const Arrow := " → "

  function ErrorLine(action: string, e: FsError): string {
    "Error during " + action + ": " + ErrorText(e)
  }

  function SummaryLine(fileType: string, count: nat): string {
    "Moved " + NatText(count) + " " + fileType + " files to " + Capitalize(fileType) + " folder"
  }

  function Prepend(lines: seq<string>, o: Outcome): Outcome {
    Outcome(o.tree, lines + o.lines)
  }

  /** Regrouping two prepends; kept as a lemma so the loop proofs that use it stay small. */
  lemma PrependTwice(a: seq<string>, b: seq<string>, o: Outcome)
    ensures Prepend(a, Prepend(b, o)) == Prepend(a + b, o)
  {
    assert a + (b + o.lines) == (a + b) + o.lines;
  }

  // ---------------------------------------------------------------------
  // The four single-call actions

  /** What one operation does to the disk, and the lines it reports. */
  ghost function StepSpec(t: Tree, cwd: Path, directory: string, mime: string -> Option<string>,
                          op: Operation): Outcome
  {
    var action := op.action;
    if action == "create_folder" then
      match OsMakedirs(t, cwd, PathJoin(directory, op.destination))
      case Err(e) => Outcome(t, [ErrorLine(action, e)])
      case Ok(t1) => Outcome(t1, ["Created folder: " + op.destination])
    else if action == "move" then
      var src, dst := PathJoin(directory, op.source), PathJoin(directory, op.destination);
      match OsMakedirs(t, cwd, Dirname(dst))
      case Err(e) => Outcome(t, [ErrorLine(action, e)])
      case Ok(t1) =>
        match OsMove(t1, cwd, src, dst)
        case Err(e) => Outcome(t1, [ErrorLine(action, e)])
        case Ok(t2) => Outcome(t2, ["Moved: " + op.source + Arrow + op.destination])
    else if action == "rename" then
      match OsRename(t, cwd, PathJoin(directory, op.source), PathJoin(directory, op.destination))
      case Err(e) => Outcome(t, [ErrorLine(action, e)])
      case Ok(t1) => Outcome(t1, ["Renamed: " + op.source + Arrow + op.destination])
    else if action == "delete" then
      var p := PathJoin(directory, op.source);
      var t1 := if OsIsFile(t, cwd, p) || OsIsDir(t, cwd, p) then RemoveTree(t, Resolve(cwd, p)) else t;
      Outcome(t1, ["Deleted: " + op.source])
    else if action == "organize_by_type" then
      OrganizeSpec(t, cwd, directory, mime)
    else
      Outcome(t, [])
  }

  /** The operations in order, each on the disk the previous one left. */
  ghost function Run(t: Tree, cwd: Path, directory: string, mime: string -> Option<string>,
                     ops: seq<Operation>): Outcome
    decreases |ops|, 0
  {
    if ops == [] then Outcome(t, [])
    else RunFrom(StepSpec(t, cwd, directory, mime, ops[0]), cwd, directory, mime, ops[1..])
  }

  /** The lines of a first outcome, followed by the rest of the operations run after it. */
  ghost function RunFrom(o: Outcome, cwd: Path, directory: string, mime: string -> Option<string>,
                         rest: seq<Operation>): Outcome
    decreases |rest|, 1
  {
    Prepend(o.lines, Run(o.tree, cwd, directory, mime, rest))
  }

  // ---------------------------------------------------------------------
  // organize_by_type

  /** The coarse type of each entry name of `directory`. */
  function TypeOf(directory: string, mime: string -> Option<string>): string -> string {
    name => GetFileType(mime, PathJoin(directory, name))
  }

  /** The listed names that are regular files, in listing order. */
  function RegularFiles(t: Tree, cwd: Path, directory: string, names: seq<string>): (r: seq<string>)
    ensures forall f :: f in r <==> f in names && OsIsFile(t, cwd, PathJoin(directory, f))
  {
    if names == [] then []
    else
      var f := names[|names| - 1];
      var init := RegularFiles(t, cwd, directory, names[..|names| - 1]);
      assert names == names[..|names| - 1] + [f];
      if OsIsFile(t, cwd, PathJoin(directory, f)) then init + [f] else init
  }

  /** The type of each file, in listing order. */
  function Types(kind: string -> string, files: seq<string>): (r: seq<string>)
    ensures |r| == |files|
    ensures forall i :: 0 <= i < |files| ==> r[i] == kind(files[i])
  {
    if files == [] then [] else Types(kind, files[..|files| - 1]) + [kind(files[|files| - 1])]
  }

  /** The keys of the grouping dictionary, in the order they were first met. */
  function TypeOrder(kind: string -> string, files: seq<string>): (r: seq<string>)
    ensures forall ty :: ty in r <==> ty in Types(kind, files)
    ensures forall i, j :: 0 <= i < j < |r| ==> r[i] != r[j]
  {
    if files == [] then []
    else
      var f := files[|files| - 1];
      var init := TypeOrder(kind, files[..|files| - 1]);
      assert Types(kind, files) == Types(kind, files[..|files| - 1]) + [kind(f)];
      if kind(f) in init then init else init + [kind(f)]
  }

  /** The files of one type, in listing order: one value of the grouping dictionary. */
  function FilesOfType(kind: string -> string, files: seq<string>, ty: string): (r: seq<string>)
    ensures forall f :: f in r <==> f in files && kind(f) == ty
    ensures |r| <= |files|
  {
    if files == [] then []
    else
      var f := files[|files| - 1];
      var init := FilesOfType(kind, files[..|files| - 1], ty);
      assert files == files[..|files| - 1] + [f];
      if kind(f) == ty then init + [f] else init
  }

  /** Moves each file of `fs` from `directory` into `folder`, stopping at the first failure. */
  function MoveAll(t: Tree, cwd: Path, directory: string, folder: string, fs: seq<string>): Step
    decreases |fs|
  {
    if fs == [] then Done(t)
    else
      match OsMove(t, cwd, PathJoin(directory, fs[0]), PathJoin(folder, fs[0]))
      case Err(e) => Failed(t, e)
      case Ok(t1) => MoveAll(t1, cwd, directory, folder, fs[1..])
  }

  /** Makes the folder of one type and moves the type's files into it. */
  function PlaceGroup(t: Tree, cwd: Path, directory: string, ty: string, fs: seq<string>): Step {
    var folder := PathJoin(directory, Capitalize(ty));
    match OsMakedirs(t, cwd, folder)
    case Err(e) => Failed(t, e)
    case Ok(t1) => MoveAll(t1, cwd, directory, folder, fs)
  }

  /** Places the groups of `types` in order, skipping "unknown", stopping at the first failure. */
  function PlaceGroups(t: Tree, cwd: Path, directory: string, kind: string -> string,
                       files: seq<string>, types: seq<string>): Outcome
    decreases |types|
  {
    if types == [] then Outcome(t, [])
    else if types[0] == "unknown" then PlaceGroups(t, cwd, directory, kind, files, types[1..])
    else
      var fs := FilesOfType(kind, files, types[0]);
      match PlaceGroup(t, cwd, directory, types[0], fs)
      case Failed(t1, e) => Outcome(t1, [ErrorLine("organize_by_type", e)])
      case Done(t1) =>
        Prepend([SummaryLine(types[0], |fs|)], PlaceGroups(t1, cwd, directory, kind, files, types[1..]))
  }

  /** What `organize_by_type` does to the disk, and the lines it reports. */
  ghost function OrganizeSpec(t: Tree, cwd: Path, directory: string, mime: string -> Option<string>): Outcome {
    match OsListDir(t, cwd, directory)
    case Err(e) => Outcome(t, [ErrorLine("organize_by_type", e)])
    case Ok(names) =>
      var files := RegularFiles(t, cwd, directory, names);
      var kind := TypeOf(directory, mime);
      PlaceGroups(t, cwd, directory, kind, files, TypeOrder(kind, files))
  }

  // ---------------------------------------------------------------------
  // The program's loops

  /** `execute_file_operations(operations, directory)`. */
  method ExecuteFileOperations(disk: Disk, operations: seq<Operation>, directory: string,
                               mime: string -> Option<string>)
    returns (results: seq<string>)
    requires disk.Valid()
    modifies disk
    ensures disk.Valid()
    ensures Outcome(disk.nodes, results) == Run(old(disk.nodes), disk.cwd, directory, mime, operations)
  {
    results := [];
    for i := 0 to |operations|
      invariant disk.Valid()
      invariant Run(old(disk.nodes), disk.cwd, directory, mime, operations)
                == Prepend(results, Run(disk.nodes, disk.cwd, directory, mime, operations[i..]))
    {
      var lines := ApplyOperation(disk, operations[i], directory, mime);
      assert operations[i..][1..] == operations[i + 1..];
      results := results + lines;
    }
  }

  /** One pass of the loop body of `execute_file_operations`, with its `try`. */
  method ApplyOperation(disk: Disk, op: Operation, directory: string, mime: string -> Option<string>)
    returns (lines: seq<string>)
    requires disk.Valid()
    modifies disk
    ensures disk.Valid()
    ensures Outcome(disk.nodes, lines) == StepSpec(old(disk.nodes), disk.cwd, directory, mime, op)
  {
    var action, source, destination := op.action, op.source, op.destination;
    if action == "create_folder" {
      var folderPath := PathJoin(directory, destination);
      var err := disk.Makedirs(folderPath);
      lines := if err.Some? then [ErrorLine(action, err.value)] else ["Created folder: " + destination];
    } else if action == "move" {
      var sourcePath := PathJoin(directory, source);
      var destPath := PathJoin(directory, destination);
      var err := disk.Makedirs(Dirname(destPath));
      if err.Some? {
        return [ErrorLine(action, err.value)];
      }
      err := disk.Move(sourcePath, destPath);
      lines := if err.Some? then [ErrorLine(action, err.value)] else ["Moved: " + source + Arrow + destination];
    } else if action == "rename" {
      var sourcePath := PathJoin(directory, source);
      var destPath := PathJoin(directory, destination);
      var err := disk.Rename(sourcePath, destPath);
      lines := if err.Some? then [ErrorLine(action, err.value)] else ["Renamed: " + source + Arrow + destination];
    } else if action == "delete" {
      var sourcePath := PathJoin(directory, source);
      if disk.IsFile(sourcePath) {
        disk.Remove(sourcePath);
      } else if disk.IsDir(sourcePath) {
        disk.Remove(sourcePath);
      }
      lines := ["Deleted: " + source];
    } else if action == "organize_by_type" {
      lines := OrganizeByType(disk, directory, mime);
    } else {
      lines := [];
    }
  }

  /** The `organize_by_type` branch: list, group by type, then make folders and move. */
  method OrganizeByType(disk: Disk, directory: string, mime: string -> Option<string>)
    returns (lines: seq<string>)
    requires disk.Valid()
    modifies disk
    ensures disk.Valid()
    ensures Outcome(disk.nodes, lines) == OrganizeSpec(old(disk.nodes), disk.cwd, directory, mime)
  {
    var listing := disk.ListDir(directory);
    if listing.Err? {
      return [ErrorLine("organize_by_type", listing.error)];
    }
    var files := SelectFiles(disk, directory, listing.value);
    var fileTypes, order := GroupByType(directory, mime, files);
    lines := PlaceByType(disk, directory, mime, files, fileTypes, order);
  }

  /** `[f for f in names if os.path.isfile(os.path.join(directory, f))]`. */
  method SelectFiles(disk: Disk, directory: string, names: seq<string>) returns (files: seq<string>)
    ensures files == RegularFiles(disk.nodes, disk.cwd, directory, names)
  {
    files := [];
    for i := 0 to |names|
      invariant files == RegularFiles(disk.nodes, disk.cwd, directory, names[..i])
    {
      assert names[..i + 1][..i] == names[..i];
      if disk.IsFile(PathJoin(directory, names[i])) {
        files := files + [names[i]];
      }
    }
    assert names[..|names|] == names;
  }

  /**
   * The grouping dictionary `file_types`: each type met maps to its files in
   * listing order; `order` is the dictionary's key order, first met first.
   */
  method GroupByType(directory: string, mime: string -> Option<string>, files: seq<string>)
    returns (fileTypes: map<string, seq<string>>, order: seq<string>)
    ensures order == TypeOrder(TypeOf(directory, mime), files)
    ensures forall ty :: ty in fileTypes <==> ty in order
    ensures forall ty :: ty in fileTypes ==> fileTypes[ty] == FilesOfType(TypeOf(directory, mime), files, ty)
  {
    ghost var kind := TypeOf(directory, mime);
    fileTypes, order := map[], [];
    for i := 0 to |files|
      invariant order == TypeOrder(kind, files[..i])
      invariant forall ty :: ty in fileTypes <==> ty in order
      invariant forall ty :: ty in fileTypes ==> fileTypes[ty] == FilesOfType(kind, files[..i], ty)
    {
      var file := files[i];
      var fileType := GetFileType(mime, PathJoin(directory, file));
      GroupUpdate(kind, files, i, fileTypes, order);
      var group := if fileType in fileTypes then fileTypes[fileType] else [];
      if fileType !in fileTypes {
        order := order + [fileType];
      }
      fileTypes := fileTypes[fileType := group + [file]];
    }
    assert files[..|files|] == files;
  }

  /** How the grouping changes when one more file is met. */
  lemma GroupStep(kind: string -> string, files: seq<string>, i: nat)
    requires i < |files|
    ensures var before := TypeOrder(kind, files[..i]);
            TypeOrder(kind, files[..i + 1]) == if kind(files[i]) in before then before else before + [kind(files[i])]
    ensures forall ty :: FilesOfType(kind, files[..i + 1], ty)
                         == FilesOfType(kind, files[..i], ty) + (if ty == kind(files[i]) then [files[i]] else [])
    ensures kind(files[i]) !in TypeOrder(kind, files[..i]) ==> FilesOfType(kind, files[..i], kind(files[i])) == []
  {
    assert files[..i + 1][..i] == files[..i];
    var ty := kind(files[i]);
    var fs := FilesOfType(kind, files[..i], ty);
    if fs != [] {
      assert fs[0] in files[..i];
      var k :| 0 <= k < i && files[..i][k] == fs[0];
      assert Types(kind, files[..i])[k] == ty;
    }
  }

  /** One turn of the grouping loop keeps the dictionary equal to the grouping of the files met. */
  lemma GroupUpdate(kind: string -> string, files: seq<string>, i: nat,
                    fileTypes: map<string, seq<string>>, order: seq<string>)
    requires i < |files|
    requires order == TypeOrder(kind, files[..i])
    requires forall ty :: ty in fileTypes <==> ty in order
    requires forall ty :: ty in fileTypes ==> fileTypes[ty] == FilesOfType(kind, files[..i], ty)
    ensures var ty := kind(files[i]);
            var group := if ty in fileTypes then fileTypes[ty] else [];
            var order' := if ty in fileTypes then order else order + [ty];
            var fileTypes' := fileTypes[ty := group + [files[i]]];
            && order' == TypeOrder(kind, files[..i + 1])
            && (forall u :: u in fileTypes' <==> u in order')
            && (forall u :: u in fileTypes' ==> fileTypes'[u] == FilesOfType(kind, files[..i + 1], u))
  {
    GroupStep(kind, files, i);
    var ty := kind(files[i]);
    var group := if ty in fileTypes then fileTypes[ty] else [];
    var order' := if ty in fileTypes then order else order + [ty];
    var fileTypes' := fileTypes[ty := group + [files[i]]];
    assert group == FilesOfType(kind, files[..i], ty);
    forall u | u in fileTypes'
      ensures fileTypes'[u] == FilesOfType(kind, files[..i + 1], u)
    {
      if u != ty {
        assert fileTypes'[u] == fileTypes[u];
      }
    }
  }

  /** The second loop of `organize_by_type`: a folder per known type, and the moves. */
  method PlaceByType(disk: Disk, directory: string, mime: string -> Option<string>, files: seq<string>,
                     fileTypes: map<string, seq<string>>, order: seq<string>)
    returns (lines: seq<string>)
    requires disk.Valid()
    requires forall ty :: ty in order ==> ty in fileTypes && fileTypes[ty] == FilesOfType(TypeOf(directory, mime), files, ty)
    modifies disk
    ensures disk.Valid()
    ensures Outcome(disk.nodes, lines) == PlaceGroups(old(disk.nodes), disk.cwd, directory, TypeOf(directory, mime), files, order)
  {
    ghost var kind := TypeOf(directory, mime);
    ghost var start := disk.nodes;
    lines := [];
    for k := 0 to |order|
      invariant disk.Valid()
      invariant PlaceGroups(start, disk.cwd, directory, kind, files, order)
                == Prepend(lines, PlaceGroups(disk.nodes, disk.cwd, directory, kind, files, order[k..]))
    {
      var fileType := order[k];
      ghost var rest := order[k..];
      assert rest[0] == fileType && rest[1..] == order[k + 1..];
      ghost var before := disk.nodes;
      if fileType == "unknown" {
        assert PlaceGroups(before, disk.cwd, directory, kind, files, rest)
               == PlaceGroups(before, disk.cwd, directory, kind, files, order[k + 1..]);
        continue;
      }
      var typeFiles := fileTypes[fileType];
      var failure := PlaceGroupOf(disk, directory, fileType, typeFiles);
      if failure.Some? {
        assert PlaceGroups(before, disk.cwd, directory, kind, files, rest)
               == Outcome(disk.nodes, [ErrorLine("organize_by_type", failure.value)]);
        lines := lines + [ErrorLine("organize_by_type", failure.value)];
        return;
      }
      assert PlaceGroups(before, disk.cwd, directory, kind, files, rest)
             == Prepend([SummaryLine(fileType, |typeFiles|)],
                        PlaceGroups(disk.nodes, disk.cwd, directory, kind, files, order[k + 1..]));
      PrependTwice(lines, [SummaryLine(fileType, |typeFiles|)],
                   PlaceGroups(disk.nodes, disk.cwd, directory, kind, files, order[k + 1..]));
      lines := lines + [SummaryLine(fileType, |typeFiles|)];
    }
    assert order[|order|..] == [];
  }

  /** One pass of the second loop: the type's folder, then its files. */
  method PlaceGroupOf(disk: Disk, directory: string, fileType: string, typeFiles: seq<string>)
    returns (failure: Option<FsError>)
    requires disk.Valid()
    modifies disk
    ensures disk.Valid()
    ensures PlaceGroup(old(disk.nodes), disk.cwd, directory, fileType, typeFiles)
            == if failure.Some? then Failed(disk.nodes, failure.value) else Done(disk.nodes)
  {
    var typeFolder := PathJoin(directory, Capitalize(fileType));
    failure := disk.Makedirs(typeFolder);
    if failure.Some? {
      return;
    }
    failure := MoveFiles(disk, directory, typeFolder, typeFiles);
  }

  /** `for file in type_files: shutil.move(...)`, stopping at the first exception. */
  method MoveFiles(disk: Disk, directory: string, folder: string, fs: seq<string>)
    returns (failure: Option<FsError>)
    requires disk.Valid()
    modifies disk
    ensures disk.Valid()
    ensures MoveAll(old(disk.nodes), disk.cwd, directory, folder, fs)
            == if failure.Some? then Failed(disk.nodes, failure.value) else Done(disk.nodes)
  {
    for j := 0 to |fs|
      invariant disk.Valid()
      invariant MoveAll(old(disk.nodes), disk.cwd, directory, folder, fs)
                == MoveAll(disk.nodes, disk.cwd, directory, folder, fs[j..])
    {
      var file := fs[j];
      assert fs[j..][1..] == fs[j + 1..];
      var err := disk.Move(PathJoin(directory, file), PathJoin(folder, file));
      if err.Some? {
        return err;
      }
    }
    assert fs[|fs|..] == [];
    return None;
  }
}

=== FILE: filesystem.dfy ===
/**
 * The disk the file manager acts on, and the operating-system calls it
 * makes: `os.makedirs(..., exist_ok=True)`, `os.rename`, `shutil.move`,
 * `os.remove` / `shutil.rmtree`, `os.listdir`, `os.path.isfile`,
 * `os.path.isdir` and `os.path.getsize`.
 *
 * The disk is a map from resolved locations to nodes. A well-formed map is a
 * tree: every entry other than the root sits in a directory that is itself
 * an entry, and every component is a plain name.
 */
module FileSystem {
  import opened Wrappers
  import opened Paths
  import opened Ordering

  datatype Node = File(size: nat) | Dir

  type Tree = map<Path, Node>

  /** What an operating-system call raises. */
  datatype FsError =
    | NotFound(path: Path)              // errno 2
    | FileExists(path: Path)            // errno 17
    | NotADirectory(path: Path)         // errno 20
    | IsADirectory(path: Path)          // errno 21
    | DirectoryNotEmpty(path: Path)     // errno 39
    | InvalidArgument(src: Path, dst: Path)  // errno 22: a directory renamed into itself
    | IntoItself(src: Path, dst: Path)  // shutil: a directory moved into itself
    | DestinationExists(path: Path)     // shutil: the entry to move onto is taken
    | EmptyPath                         // errno 2 for the path ''

  /** A location written as an absolute path string. */
  function PathText(p: Path): string {
    if p == [] then "/" else "/" + JoinSlash(p)
  }

  /** `str(e)` for an error `e`. */
  function ErrorText(e: FsError): string {
    match e
    case NotFound(p) => "[Errno 2] No such file or directory: '" + PathText(p) + "'"
    case FileExists(p) => "[Errno 17] File exists: '" + PathText(p) + "'"
    case NotADirectory(p) => "[Errno 20] Not a directory: '" + PathText(p) + "'"
    case IsADirectory(p) => "[Errno 21] Is a directory: '" + PathText(p) + "'"
    case DirectoryNotEmpty(p) => "[Errno 39] Directory not empty: '" + PathText(p) + "'"
    case InvalidArgument(s, d) => "[Errno 22] Invalid argument: '" + PathText(s) + "' -> '" + PathText(d) + "'"
    case IntoItself(s, d) =>
      "Cannot move a directory '" + PathText(s) + "' into itself '" + PathText(d) + "'."
    case DestinationExists(p) => "Destination path '" + PathText(p) + "' already exists"
    case EmptyPath => "[Errno 2] No such file or directory: ''"
  }

  function Parent(p: Path): Path
    requires p != []
  {
    p[..|p| - 1]
  }

  /** The map is a tree of plain names. */
  ghost predicate WellFormed(t: Tree) {
    && (forall p :: p in t ==> PlainPath(p))
    && (forall p {:trigger Parent(p)} :: p in t && p != [] ==> Parent(p) in t && t[Parent(p)].Dir?)
  }

  /** Every ancestor of an entry of a tree is a directory of it. */
  lemma {:induction false} AncestorIsDir(t: Tree, p: Path, k: nat)
    requires WellFormed(t) && p in t && k < |p|
    ensures p[..k] in t && t[p[..k]].Dir?
    decreases |p| - k
  {
    if k == |p| - 1 {
      assert p[..k] == Parent(p);
    } else {
      AncestorIsDir(t, Parent(p), k);
      assert Parent(p)[..k] == p[..k];
    }
  }

  /** A file of a tree has nothing below it. */
  lemma FileIsLeaf(t: Tree, f: Path, q: Path)
    requires WellFormed(t) && f in t && t[f].File?
    requires q in t && Under(q, f)
    ensures q == f
  {
    if q != f {
      AncestorIsDir(t, q, |f|);
    }
  }

  /** Whatever has an entry below it is itself an entry of a tree. */
  lemma EntryBelowExists(t: Tree, d: Path, q: Path)
    requires WellFormed(t) && q in t && Under(q, d)
    ensures d in t
  {
    if q != d {
      AncestorIsDir(t, q, |d|);
    }
  }

  /** `os.path.isfile`. */
  predicate IsFileAt(t: Tree, p: Path) {
    p in t && t[p].File?
  }

  /** `os.path.isdir`. */
  predicate IsDirAt(t: Tree, p: Path) {
    p in t && t[p].Dir?
  }

  /** The names of the entries directly inside `d`. */
  function Children(t: Tree, d: Path): (r: set<string>)
    ensures forall n :: n in r <==> d + [n] in t
  {
    var r := set p | p in t && |p| == |d| + 1 && p[..|d|] == d :: p[|d|];
    assert forall n :: d + [n] in t ==> n in r by {
      forall n | d + [n] in t ensures n in r {
        var p := d + [n];
        assert p[..|d|] == d && p[|d|] == n;
      }
    }
    assert forall n :: n in r ==> d + [n] in t by {
      forall n | n in r ensures d + [n] in t {
        var p :| p in t && |p| == |d| + 1 && p[..|d|] == d && p[|d|] == n;
        assert p == d + [n];
      }
    }
    r
  }

  /** `os.listdir`: the names inside a directory, in listing order. */
  ghost function ListDirAt(t: Tree, d: Path): (r: Result<seq<string>, FsError>)
    ensures r.Ok? <==> IsDirAt(t, d)
    ensures r.Ok? ==> forall n :: n in r.value <==> d + [n] in t
    ensures r.Ok? ==> Increasing(r.value)
  {
    if d !in t then Err(Missing(t, d))
    else if t[d].File? then Err(NotADirectory(d))
    else EnumerateIncreasing(Children(t, d)); Ok(Enumerate(Children(t, d)))
  }

  /**
   * `os.makedirs(p, exist_ok=True)`: creates `p` and every missing ancestor;
   * an existing directory is fine, a file in the way is an error.
   */
  function Makedirs(t: Tree, p: Path): (r: Result<Tree, FsError>)
    ensures r.Ok? ==> IsDirAt(r.value, p)
    ensures r.Ok? ==> forall q :: q in t ==> q in r.value && r.value[q] == t[q]
    ensures r.Ok? ==> forall q :: q in r.value && q !in t ==> Under(p, q) && r.value[q] == Dir
    decreases |p|
  {
    if p in t then (if t[p].Dir? then Ok(t) else Err(FileExists(p)))
    else if p == [] then Ok(t[p := Dir])
    else
      var base :=
        if Parent(p) in t then (if t[Parent(p)].Dir? then Ok(t) else Err(NotADirectory(p)))
        else Makedirs(t, Parent(p));
      match base
      case Err(e) => Err(e)
      case Ok(t1) => Ok(t1[p := Dir])
  }

  /** Creating directories along a path of plain names keeps the tree a tree. */
  lemma {:induction false} MakedirsWellFormed(t: Tree, p: Path)
    requires WellFormed(t) && PlainPath(p)
    requires Makedirs(t, p).Ok?
    ensures WellFormed(Makedirs(t, p).value)
    ensures IsDirAt(t, p) ==> Makedirs(t, p).value == t
    decreases |p|
  {
    if p !in t && p != [] && Parent(p) !in t {
      assert PlainPath(Parent(p));
      MakedirsWellFormed(t, Parent(p));
    }
  }

  /** `p` or one of its ancestors is a file. */
  predicate FileOnWay(t: Tree, p: Path)
    decreases |p|
  {
    IsFileAt(t, p) || (p != [] && FileOnWay(t, Parent(p)))
  }

  /**
   * The error for a path that names nothing: the lookup stops at a file on
   * the way ("not a directory"), or finds no entry ("no such file").
   */
  function Missing(t: Tree, p: Path): (e: FsError)
    ensures p != [] && FileOnWay(t, Parent(p)) ==> e == NotADirectory(p)
    ensures p == [] || !FileOnWay(t, Parent(p)) ==> e == NotFound(p)
  {
    if p != [] && FileOnWay(t, Parent(p)) then NotADirectory(p) else NotFound(p)
  }

  lemma {:induction false} DirHasNoFileOnWay(t: Tree, p: Path)
    requires WellFormed(t) && IsDirAt(t, p)
    ensures !FileOnWay(t, p)
    decreases |p|
  {
    if p != [] {
      DirHasNoFileOnWay(t, Parent(p));
    }
  }

  /** On a tree, `makedirs` fails exactly when the path or one of its ancestors is a file. */
  lemma {:induction false} MakedirsFails(t: Tree, p: Path)
    requires WellFormed(t)
    ensures Makedirs(t, p).Err? <==> FileOnWay(t, p)
    decreases |p|
  {
    if p in t {
      if t[p].Dir? { DirHasNoFileOnWay(t, p); }
    } else if p != [] {
      if Parent(p) in t {
        if t[Parent(p)].Dir? { DirHasNoFileOnWay(t, Parent(p)); }
      } else {
        MakedirsFails(t, Parent(p));
      }
    }
  }

  /** `shutil.rmtree(p)` (and `os.remove` for a file): `p` and everything below it go. */
  function RemoveTree(t: Tree, p: Path): (r: Tree)
    ensures forall q :: q in r <==> q in t && !Under(q, p)
    ensures forall q :: q in r ==> r[q] == t[q]
  {
    map q | q in t && !Under(q, p) :: t[q]
  }

  lemma RemoveTreeWellFormed(t: Tree, p: Path)
    requires WellFormed(t)
    ensures WellFormed(RemoveTree(t, p))
  {
    var r := RemoveTree(t, p);
    forall q | q in r && q != [] ensures Parent(q) in r && r[Parent(q)].Dir? {
    }
  }

  /** The locations the subtree at `src` takes when it is renamed to `dst`. */
  function MovedKeys(t: Tree, src: Path, dst: Path): (r: set<Path>)
    ensures forall p :: p in r <==> Under(p, dst) && src + p[|dst|..] in t
  {
    var r := set q | q in t && Under(q, src) :: dst + q[|src|..];
    assert forall p :: Under(p, dst) && src + p[|dst|..] in t ==> p in r by {
      forall p | Under(p, dst) && src + p[|dst|..] in t ensures p in r {
        var q := src + p[|dst|..];
        assert q[..|src|] == src && q[|src|..] == p[|dst|..];
        assert p == dst + p[|dst|..];
      }
    }
    assert forall p :: p in r ==> Under(p, dst) && src + p[|dst|..] in t by {
      forall p | p in r ensures Under(p, dst) && src + p[|dst|..] in t {
        var q :| q in t && Under(q, src) && p == dst + q[|src|..];
        assert p[..|dst|] == dst && p[|dst|..] == q[|src|..];
        assert q == src + q[|src|..];
      }
    }
    r
  }

  /**
   * The subtree at `src` re-rooted at `dst`; whatever was at or below `dst`
   * is replaced.
   */
  function Relocate(t: Tree, src: Path, dst: Path): (r: Tree)
    ensures forall p :: p in r <==>
      (Under(p, dst) && src + p[|dst|..] in t) || (p in t && !Under(p, src) && !Under(p, dst))
    ensures forall p :: p in r && Under(p, dst) ==> r[p] == t[src + p[|dst|..]]
    ensures forall p :: p in r && !Under(p, dst) ==> r[p] == t[p]
  {
    var moved := MovedKeys(t, src, dst);
    var kept := set q | q in t && !Under(q, src) && !Under(q, dst);
    map p | p in moved + kept ::
      if Under(p, dst) then t[src + p[|dst|..]] else t[p]
  }

  /** Whether the directory `d` holds any entry. */
  predicate HasEntries(t: Tree, d: Path) {
    Children(t, d) != {}
  }

  /**
   * `os.rename(src, dst)` with POSIX rules: a file replaces a file, a
   * directory replaces an empty directory, anything else in the way is an
   * error, and renaming onto itself does nothing. A directory renamed below
   * itself is an invalid argument; a path below a file is not a directory.
   */
  function RenameTree(t: Tree, src: Path, dst: Path): (r: Result<Tree, FsError>)
    ensures r.Ok? ==> src in t
    ensures r.Ok? && src != dst ==> !Under(dst, src) && !Under(src, dst)
    ensures src in t && src == dst ==> r == Ok(t)
    ensures src in t && src != dst && Under(dst, src) ==>
              r == (if t[src].Dir? then Err(InvalidArgument(src, dst)) else Err(NotADirectory(dst)))
  {
    if src !in t then Err(Missing(t, src))
    else if src == dst then Ok(t)
    else if Under(dst, src) then (if t[src].Dir? then Err(InvalidArgument(src, dst)) else Err(NotADirectory(dst)))
    else if Under(src, dst) then Err(DirectoryNotEmpty(dst))
    else if Parent(dst) !in t then Err(Missing(t, dst))
    else if t[Parent(dst)].File? then Err(NotADirectory(dst))
    else if dst in t && t[dst].Dir? && t[src].File? then Err(IsADirectory(dst))
    else if dst in t && t[dst].File? && t[src].Dir? then Err(NotADirectory(dst))
    else if dst in t && t[dst].Dir? && HasEntries(t, dst) then Err(DirectoryNotEmpty(dst))
    else Ok(Relocate(t, src, dst))
  }

  lemma RenameTreeWellFormed(t: Tree, src: Path, dst: Path)
    requires WellFormed(t) && PlainPath(dst)
    requires RenameTree(t, src, dst).Ok?
    ensures WellFormed(RenameTree(t, src, dst).value)
  {
    if src != dst {
      RelocatePlain(t, src, dst);
      RelocateParents(t, src, dst);
    }
  }

  /** Relocating onto a plain path keeps every path plain. */
  lemma RelocatePlain(t: Tree, src: Path, dst: Path)
    requires forall p :: p in t ==> PlainPath(p)
    requires PlainPath(dst)
    ensures forall p :: p in Relocate(t, src, dst) ==> PlainPath(p)
  {
    var r := Relocate(t, src, dst);
    forall p | p in r ensures PlainPath(p) {
      if Under(p, dst) {
        var q := src + p[|dst|..];
        assert PlainPath(q);
        forall i | 0 <= i < |p| ensures IsPlain(p[i]) {
          if i >= |dst| { assert p[i] == q[|src| + i - |dst|]; }
        }
      }
    }
  }

  /** Relocating a subtree onto a free place whose parent is a directory keeps every parent a directory. */
  lemma RelocateParents(t: Tree, src: Path, dst: Path)
    requires forall p :: p in t && p != [] ==> Parent(p) in t && t[Parent(p)].Dir?
    requires src in t && dst != [] && !Under(dst, src) && !Under(src, dst)
    requires Parent(dst) in t && t[Parent(dst)].Dir?
    ensures var r := Relocate(t, src, dst);
            forall p :: p in r && p != [] ==> Parent(p) in r && r[Parent(p)].Dir?
  {
    var r := Relocate(t, src, dst);
    forall p | p in r && p != [] ensures Parent(p) in r && r[Parent(p)].Dir? {
      if Under(p, dst) {
        MovedParent(t, src, dst, p);
      } else {
        KeptParent(t, src, dst, p);
      }
    }
  }

  /** The parent of a relocated entry is the relocated parent of its source, or the parent of `dst`. */
  lemma MovedParent(t: Tree, src: Path, dst: Path, p: Path)
    requires forall p :: p in t && p != [] ==> Parent(p) in t && t[Parent(p)].Dir?
    requires dst != [] && !Under(dst, src) && !Under(src, dst)
    requires Parent(dst) in t && t[Parent(dst)].Dir?
    requires Under(p, dst) && src + p[|dst|..] in t
    ensures var r := Relocate(t, src, dst);
            Parent(p) in r && r[Parent(p)].Dir?
  {
    var s := p[|dst|..];
    if s == [] {
      assert p == dst;
      assert !Under(Parent(dst), dst);
    } else {
      var q := src + s;
      assert q != [];
      assert Parent(q) == src + s[..|s| - 1];
      assert Parent(p) == dst + s[..|s| - 1];
      assert Parent(p)[|dst|..] == s[..|s| - 1];
    }
  }

  /** The parent of an entry that stays where it was stays too. */
  lemma KeptParent(t: Tree, src: Path, dst: Path, p: Path)
    requires forall p :: p in t && p != [] ==> Parent(p) in t && t[Parent(p)].Dir?
    requires p in t && p != [] && !Under(p, src) && !Under(p, dst)
    ensures var r := Relocate(t, src, dst);
            Parent(p) in r && r[Parent(p)].Dir?
  {
  }

  /** One location of a file renamed onto a free place or onto another file. */
  lemma RelocateFileAt(t: Tree, src: Path, dst: Path, p: Path)
    requires WellFormed(t) && IsFileAt(t, src) && !IsDirAt(t, dst)
    requires !Under(dst, src) && !Under(src, dst)
    ensures var r := Relocate(t, src, dst);
            var e := (t - {src})[dst := t[src]];
            (p in r <==> p in e) && (p in r ==> r[p] == e[p])
  {
    if Under(p, dst) {
      if p == dst {
        assert src + p[|dst|..] == src;
      } else {
        if src + p[|dst|..] in t { FileIsLeaf(t, src, src + p[|dst|..]); }
        if p in t {
          EntryBelowExists(t, dst, p);
          FileIsLeaf(t, dst, p);
        }
      }
    } else if Under(p, src) && p in t {
      FileIsLeaf(t, src, p);
    }
  }

  /**
   * Renaming a file onto a free place, or onto another file, in an existing
   * directory: the file now sits at `dst` and nothing else changes.
   */
  lemma RenameFile(t: Tree, src: Path, dst: Path)
    requires WellFormed(t) && IsFileAt(t, src) && src != dst
    requires dst != [] && IsDirAt(t, Parent(dst))
    requires !IsDirAt(t, dst)
    requires !Under(dst, src) && !Under(src, dst)
    ensures RenameTree(t, src, dst) == Ok((t - {src})[dst := t[src]])
  {
    var r := Relocate(t, src, dst);
    var e := (t - {src})[dst := t[src]];
    forall p ensures (p in r <==> p in e) && (p in r ==> r[p] == e[p]) {
      RelocateFileAt(t, src, dst, p);
    }
    assert r == e;
  }

  /**
   * `shutil.move(src, dst)`: onto an existing directory it moves `src` into
   * it under its own name; otherwise it renames.
   */
  function MoveTree(t: Tree, src: Path, dst: Path): (r: Result<Tree, FsError>)
    ensures r.Ok? ==> src in t
    ensures !IsDirAt(t, dst) && RenameTree(t, src, dst).Ok? ==> r == RenameTree(t, src, dst)
    ensures !IsDirAt(t, dst) ==> (r.Ok? <==> RenameTree(t, src, dst).Ok?)
  {
    if IsDirAt(t, dst) && src != dst then
      if src == [] then Err(DestinationExists(dst))
      else
        var into := dst + [src[|src| - 1]];
        if into in t then Err(DestinationExists(into)) else MoveByRename(t, src, dst, into)
    else MoveByRename(t, src, dst, dst)
  }

  /**
   * The rename `shutil.move` tries first, to `target`. When it fails, the
   * copy it falls back on raises instead: a directory moved below itself is
   * refused by name, and copying a directory onto a file finds the file
   * there; every other failure of the rename is the copy's failure too.
   */
  function MoveByRename(t: Tree, src: Path, dst: Path, target: Path): (r: Result<Tree, FsError>)
    ensures r.Ok? <==> RenameTree(t, src, target).Ok?
    ensures r.Ok? ==> r == RenameTree(t, src, target)
    ensures r.Err? && src in t && t[src].Dir? && Under(dst, src) ==> r == Err(IntoItself(src, dst))
  {
    match RenameTree(t, src, target)
    case Ok(t1) => Ok(t1)
    case Err(e) =>
      if src in t && t[src].Dir? && Under(dst, src) then Err(IntoItself(src, dst))
      else if src in t && t[src].Dir? && target in t && t[target].File? then Err(FileExists(target))
      else Err(e)
  }

  lemma MoveTreeWellFormed(t: Tree, src: Path, dst: Path)
    requires WellFormed(t) && PlainPath(dst)
    requires MoveTree(t, src, dst).Ok?
    ensures WellFormed(MoveTree(t, src, dst).value)
  {
    if IsDirAt(t, dst) && src != dst {
      var into := dst + [src[|src| - 1]];
      assert PlainPath(src);
      assert MoveTree(t, src, dst) == RenameTree(t, src, into);
      RenameTreeWellFormed(t, src, into);
    } else {
      RenameTreeWellFormed(t, src, dst);
    }
  }

  /**
   * A directory sent below itself: `os.rename` raises an invalid argument,
   * `shutil.move` refuses by name.
   */
  lemma DirectoryIntoItself(t: Tree, src: Path, dst: Path)
    requires src in t && t[src].Dir? && Under(dst, src) && src != dst && !IsDirAt(t, dst)
    ensures RenameTree(t, src, dst) == Err(InvalidArgument(src, dst))
    ensures MoveTree(t, src, dst) == Err(IntoItself(src, dst))
  {
  }

  /** A path below a file: both calls raise "not a directory". */
  lemma BelowAFile(t: Tree, src: Path, dst: Path)
    requires src in t && t[src].File? && Under(dst, src) && src != dst && !IsDirAt(t, dst)
    ensures RenameTree(t, src, dst) == Err(NotADirectory(dst))
    ensures MoveTree(t, src, dst) == Err(NotADirectory(dst))
  {
  }

  /**
   * A directory sent onto a file: `os.rename` raises "not a directory",
   * while `shutil.move` falls back on copying and finds the file there.
   */
  lemma DirectoryOntoFile(t: Tree, src: Path, dst: Path)
    requires WellFormed(t) && src in t && t[src].Dir? && dst in t && t[dst].File?
    requires !Under(dst, src)
    ensures RenameTree(t, src, dst) == Err(NotADirectory(dst))
    ensures MoveTree(t, src, dst) == Err(FileExists(dst))
  {
    assert !Under(src, dst) by {
      if Under(src, dst) {
        AncestorIsDir(t, src, |dst|);
      }
    }
  }

  /**
   * A source below a file: the lookup stops at the file, so `os.rename`
   * raises "not a directory", and so does `shutil.move` when it renames.
   */
  lemma SourceBelowAFile(t: Tree, src: Path, dst: Path)
    requires WellFormed(t) && src != [] && FileOnWay(t, Parent(src))
    ensures RenameTree(t, src, dst) == Err(NotADirectory(src))
    ensures !IsDirAt(t, dst) ==> MoveTree(t, src, dst) == Err(NotADirectory(src))
  {
    NoFileAboveEntry(t, src);
  }

  lemma NoFileAboveEntry(t: Tree, p: Path)
    requires WellFormed(t)
    ensures p in t && p != [] ==> !FileOnWay(t, Parent(p))
  {
    if p in t && p != [] {
      DirHasNoFileOnWay(t, Parent(p));
    }
  }

  // The calls as the program makes them: on path strings, resolved against
  // the working directory. The empty string names nothing.

  function OsMakedirs(t: Tree, cwd: Path, s: string): Result<Tree, FsError> {
    if s == "" then Err(EmptyPath) else Makedirs(t, Resolve(cwd, s))
  }

  function OsRename(t: Tree, cwd: Path, src: string, dst: string): Result<Tree, FsError> {
    if src == "" || dst == "" then Err(EmptyPath) else RenameTree(t, Resolve(cwd, src), Resolve(cwd, dst))
  }

  function OsMove(t: Tree, cwd: Path, src: string, dst: string): Result<Tree, FsError> {
    if src == "" || dst == "" then Err(EmptyPath) else MoveTree(t, Resolve(cwd, src), Resolve(cwd, dst))
  }

  predicate OsIsFile(t: Tree, cwd: Path, s: string) {
    s != "" && IsFileAt(t, Resolve(cwd, s))
  }

  predicate OsIsDir(t: Tree, cwd: Path, s: string) {
    s != "" && IsDirAt(t, Resolve(cwd, s))
  }

  ghost function OsListDir(t: Tree, cwd: Path, s: string): Result<seq<string>, FsError> {
    if s == "" then Err(EmptyPath) else ListDirAt(t, Resolve(cwd, s))
  }

  /** The tree after a call: the new one on success, the old one when it raised. */
  function After(r: Result<Tree, FsError>, t: Tree): Tree {
    if r.Ok? then r.value else t
  }

  /** The error a call raised, if any. */
  function Raised(r: Result<Tree, FsError>): Option<FsError> {
    if r.Err? then Some(r.error) else None
  }

  /** Lists a set of names by taking the first remaining one each time. */
  method ListingOrder(s: set<string>) returns (names: seq<string>)
    ensures names == Enumerate(s)
  {
    var rest := s;
    names := [];
    while rest != {}
      invariant Enumerate(s) == names + Enumerate(rest)
      decreases |rest|
    {
      LeastExists(rest);
      var m :| IsLeast(m, rest);
      EnumerateStep(names, m, rest);
      names := names + [m];
      rest := rest - {m};
    }
  }

  /** The disk as the running process sees it. */
  class Disk {
    const cwd: Path
    var nodes: Tree

    ghost predicate Valid()
      reads this
    {
      WellFormed(nodes) && PlainPath(cwd)
    }

    constructor (cwd: Path, nodes: Tree)
      requires WellFormed(nodes) && PlainPath(cwd)
      ensures Valid() && this.cwd == cwd && this.nodes == nodes
    {
      this.cwd := cwd;
      this.nodes := nodes;
    }

    /** `os.path.isfile(s)`. */
    predicate IsFile(s: string)
      reads this
    {
      OsIsFile(nodes, cwd, s)
    }

    /** `os.path.isdir(s)`. */
    predicate IsDir(s: string)
      reads this
    {
      OsIsDir(nodes, cwd, s)
    }

    /** `os.path.getsize(s)`. */
    function Size(s: string): nat
      reads this
      requires IsFile(s)
    {
      nodes[Resolve(cwd, s)].size
    }

    /** `os.listdir(s)`: the entry names in listing order, or the error it raises. */
    method ListDir(s: string) returns (r: Result<seq<string>, FsError>)
      ensures r == OsListDir(nodes, cwd, s)
    {
      if s == "" {
        return Err(EmptyPath);
      }
      var d := Resolve(cwd, s);
      if d !in nodes {
        return Err(Missing(nodes, d));
      }
      if nodes[d].File? {
        return Err(NotADirectory(d));
      }
      var names := ListingOrder(Children(nodes, d));
      return Ok(names);
    }

    /** `os.makedirs(s, exist_ok=True)`. */
    method Makedirs(s: string) returns (err: Option<FsError>)
      requires Valid()
      modifies this
      ensures Valid()
      ensures nodes == After(OsMakedirs(old(nodes), cwd, s), old(nodes))
      ensures err == Raised(OsMakedirs(old(nodes), cwd, s))
    {
      var r := OsMakedirs(nodes, cwd, s);
      if r.Ok? {
        MakedirsWellFormed(nodes, Resolve(cwd, s));
        nodes := r.value;
      }
      err := Raised(r);
    }

    /** `os.rename(src, dst)`. */
    method Rename(src: string, dst: string) returns (err: Option<FsError>)
      requires Valid()
      modifies this
      ensures Valid()
      ensures nodes == After(OsRename(old(nodes), cwd, src, dst), old(nodes))
      ensures err == Raised(OsRename(old(nodes), cwd, src, dst))
    {
      var r := OsRename(nodes, cwd, src, dst);
      if r.Ok? {
        RenameTreeWellFormed(nodes, Resolve(cwd, src), Resolve(cwd, dst));
        nodes := r.value;
      }
      err := Raised(r);
    }

    /** `shutil.move(src, dst)`. */
    method Move(src: string, dst: string) returns (err: Option<FsError>)
      requires Valid()
      modifies this
      ensures Valid()
      ensures nodes == After(OsMove(old(nodes), cwd, src, dst), old(nodes))
      ensures err == Raised(OsMove(old(nodes), cwd, src, dst))
    {
      var r := OsMove(nodes, cwd, src, dst);
      if r.Ok? {
        MoveTreeWellFormed(nodes, Resolve(cwd, src), Resolve(cwd, dst));
        nodes := r.value;
      }
      err := Raised(r);
    }

    /** `os.remove(s)` for a file, `shutil.rmtree(s)` for a directory. */
    method Remove(s: string)
      requires Valid() && (IsFile(s) || IsDir(s))
      modifies this
      ensures Valid()
      ensures nodes == RemoveTree(old(nodes), Resolve(cwd, s))
    {
      RemoveTreeWellFormed(nodes, Resolve(cwd, s));
      nodes := RemoveTree(nodes, Resolve(cwd, s));
    }
  }
}

=== FILE: filetypes.dfy ===
/**
 * `get_file_type` and the folder names `organize_by_type` derives from it.
 *
 * The program asks Python's `mimetypes.guess_type` for a file's media type;
 * that table is not part of this model, so the lookup is a parameter
 * `mime`, from the path string to the guessed type, if any.
 */
module FileTypes {
  import opened Wrappers

  /** `mime_type.split('/')[0]`: everything before the first slash. */
  function MajorType(mimeType: string): (r: string)
    ensures '/' !in r
    ensures r == mimeType || (|r| < |mimeType| && mimeType[..|r| + 1] == r + "/")
  {
    if mimeType == [] || mimeType[0] == '/' then []
    else
      var rest := MajorType(mimeType[1..]);
      assert mimeType == [mimeType[0]] + mimeType[1..];
      [mimeType[0]] + rest
  }

  /**
   * The coarse type of the file at `path`: the part of its media type before
   * the slash, or `"unknown"` when there is no (non-empty) guess.
   */
  function GetFileType(mime: string -> Option<string>, path: string): (r: string)
    ensures '/' !in r
    ensures mime(path) == None ==> r == "unknown"
    ensures mime(path) == Some("") ==> r == "unknown"
    ensures mime(path).Some? && mime(path).value != "" ==>
              var m := mime(path).value;
              m == r || (|r| < |m| && m[..|r| + 1] == r + "/")
  {
    match mime(path)
    case None => "unknown"
    case Some(m) => if m == "" then "unknown" else MajorType(m)
  }

  function Upper(c: char): char {
    if 'a' <= c <= 'z' then (c as int - 32) as char else c
  }

  function Lower(c: char): char {
    if 'A' <= c <= 'Z' then (c as int + 32) as char else c
  }

  /** `s.capitalize()` on ASCII letters: the first upper-case, the rest lower-case. */
  function Capitalize(s: string): (r: string)
    ensures |r| == |s|
    ensures |s| > 0 ==> r[0] == Upper(s[0])
    ensures forall i :: 0 < i < |s| ==> r[i] == Lower(s[i])
  {
    if s == [] then [] else [Upper(s[0])] + seq(|s| - 1, i requires 0 <= i < |s| - 1 => Lower(s[i + 1]))
  }

  /** Capitalizing twice changes nothing more. */
  lemma CapitalizeIdempotent(s: string)
    ensures Capitalize(Capitalize(s)) == Capitalize(s)
  {
    var r := Capitalize(s);
    var rr := Capitalize(r);
    forall i | 0 <= i < |s| ensures rr[i] == r[i] {
    }
  }

  /** A slash-free type capitalizes to a slash-free folder name. */
  lemma CapitalizeKeepsSlashFree(s: string)
    requires '/' !in s
    ensures '/' !in Capitalize(s)
  {
    var r := Capitalize(s);
    forall i | 0 <= i < |r| ensures r[i] != '/' {
      assert s[i] != '/';
    }
  }
}

=== FILE: operations.dfy ===
/**
 * What `execute_file_operations` promises about a whole plan and about each
 * single-call action, stated over the step and run functions it is proved
 * against.
 */
module Operations {
  import opened Wrappers
  import opened Paths
  import opened FileSystem
  import opened Command
  import opened Executor

  /** The four actions that make exactly one call and report exactly one line. */
  predicate SingleCall(action: string) {
    action == "create_folder" || action == "move" || action == "rename" || action == "delete"
  }

  /** Whether the program knows the action at all. */
  predicate Known(action: string) {
    SingleCall(action) || action == "organize_by_type"
  }

  /** The line an action reports when its calls raise nothing. */
  function SuccessLine(op: Operation): string
    requires SingleCall(op.action)
  {
    match op.action
    case "create_folder" => "Created folder: " + op.destination
    case "move" => "Moved: " + op.source + Arrow + op.destination
    case "rename" => "Renamed: " + op.source + Arrow + op.destination
    case _ => "Deleted: " + op.source
  }

  /** How many operations of the list make exactly one call. */
  function SingleCalls(ops: seq<Operation>): (n: nat)
    ensures n <= |ops|
  {
    if ops == [] then 0
    else (if SingleCall(ops[0].action) then 1 else 0) + SingleCalls(ops[1..])
  }

  /**
   * Operations run in list order: running `a` and then `b` is running `a`
   * and continuing with `b` on the disk `a` left, its lines after `a`'s.
   */
  lemma {:induction false} RunAppend(t: Tree, cwd: Path, directory: string, mime: string -> Option<string>,
                                     a: seq<Operation>, b: seq<Operation>)
    ensures var first := Run(t, cwd, directory, mime, a);
            Run(t, cwd, directory, mime, a + b)
            == Prepend(first.lines, Run(first.tree, cwd, directory, mime, b))
    decreases |a|, 0
  {
    if a == [] {
      assert a + b == b;
      assert [] + Run(t, cwd, directory, mime, b).lines == Run(t, cwd, directory, mime, b).lines;
    } else {
      assert (a + b)[0] == a[0];
      assert (a + b)[1..] == a[1..] + b;
      RunFromAppend(StepSpec(t, cwd, directory, mime, a[0]), cwd, directory, mime, a[1..], b);
    }
  }

  /** `RunAppend`, continuing from the outcome of a first operation. */
  lemma {:induction false} RunFromAppend(o: Outcome, cwd: Path, directory: string, mime: string -> Option<string>,
                                         a: seq<Operation>, b: seq<Operation>)
    ensures var first := RunFrom(o, cwd, directory, mime, a);
            RunFrom(o, cwd, directory, mime, a + b)
            == Prepend(first.lines, Run(first.tree, cwd, directory, mime, b))
    decreases |a|, 1
  {
    RunAppend(o.tree, cwd, directory, mime, a, b);
    var rest := Run(o.tree, cwd, directory, mime, a);
    PrependTwice(o.lines, rest.lines, Run(rest.tree, cwd, directory, mime, b));
  }

  /**
   * An action the program does not know changes nothing and reports
   * nothing, wherever it sits in the plan.
   */
  lemma UnknownActionSkipped(t: Tree, cwd: Path, directory: string, mime: string -> Option<string>,
                             a: seq<Operation>, op: Operation, b: seq<Operation>)
    requires !Known(op.action)
    ensures Run(t, cwd, directory, mime, a + [op] + b) == Run(t, cwd, directory, mime, a + b)
  {
    RunAppend(t, cwd, directory, mime, a + [op], b);
    RunAppend(t, cwd, directory, mime, a, [op]);
    RunAppend(t, cwd, directory, mime, a, b);
    var first := Run(t, cwd, directory, mime, a);
    assert Run(first.tree, cwd, directory, mime, [op]) == Outcome(first.tree, []) by {
      assert [op][1..] == [];
    }
    assert first.lines + [] == first.lines;
  }

  /**
   * A single-call action reports exactly one line: its success line, or
   * `Error during <action>: <message>` when a call raised.
   */
  lemma OneLinePerCall(t: Tree, cwd: Path, directory: string, mime: string -> Option<string>, op: Operation)
    requires SingleCall(op.action)
    ensures var o := StepSpec(t, cwd, directory, mime, op);
            |o.lines| == 1
            && (o.lines[0] == SuccessLine(op) || exists e :: o.lines[0] == ErrorLine(op.action, e))
  {
    if op.action == "create_folder" {
      OneLineCreate(t, cwd, directory, mime, op);
    } else if op.action == "move" {
      OneLineMove(t, cwd, directory, mime, op);
    } else if op.action == "rename" {
      OneLineRename(t, cwd, directory, mime, op);
    }
  }

  lemma OneLineCreate(t: Tree, cwd: Path, directory: string, mime: string -> Option<string>, op: Operation)
    requires op.action == "create_folder"
    ensures var o := StepSpec(t, cwd, directory, mime, op);
            |o.lines| == 1
            && (o.lines[0] == SuccessLine(op) || exists e :: o.lines[0] == ErrorLine(op.action, e))
  {
    var r := OsMakedirs(t, cwd, PathJoin(directory, op.destination));
    if r.Err? { assert StepSpec(t, cwd, directory, mime, op).lines[0] == ErrorLine(op.action, r.error); }
  }

  lemma OneLineMove(t: Tree, cwd: Path, directory: string, mime: string -> Option<string>, op: Operation)
    requires op.action == "move"
    ensures var o := StepSpec(t, cwd, directory, mime, op);
            |o.lines| == 1
            && (o.lines[0] == SuccessLine(op) || exists e :: o.lines[0] == ErrorLine(op.action, e))
  {
    var o := StepSpec(t, cwd, directory, mime, op);
    var dst := PathJoin(directory, op.destination);
    var r := OsMakedirs(t, cwd, Dirname(dst));
    if r.Err? {
      assert o.lines[0] == ErrorLine(op.action, r.error);
    } else {
      var r2 := OsMove(r.value, cwd, PathJoin(directory, op.source), dst);
      if r2.Err? { assert o.lines[0] == ErrorLine(op.action, r2.error); }
    }
  }

  lemma OneLineRename(t: Tree, cwd: Path, directory: string, mime: string -> Option<string>, op: Operation)
    requires op.action == "rename"
    ensures var o := StepSpec(t, cwd, directory, mime, op);
            |o.lines| == 1
            && (o.lines[0] == SuccessLine(op) || exists e :: o.lines[0] == ErrorLine(op.action, e))
  {
    var r := OsRename(t, cwd, PathJoin(directory, op.source), PathJoin(directory, op.destination));
    if r.Err? { assert StepSpec(t, cwd, directory, mime, op).lines[0] == ErrorLine(op.action, r.error); }
  }

  /**
   * Errors are isolated: in a plan without `organize_by_type`, every
   * single-call operation reports exactly one line, whatever the ones
   * before it raised, and every other operation reports none.
   */
  lemma {:induction false} LinePerOperation(t: Tree, cwd: Path, directory: string, mime: string -> Option<string>,
                                            ops: seq<Operation>)
    requires forall i :: 0 <= i < |ops| ==> ops[i].action != "organize_by_type"
    ensures |Run(t, cwd, directory, mime, ops).lines| == SingleCalls(ops)
    decreases |ops|
  {
    if ops != [] {
      var o := StepSpec(t, cwd, directory, mime, ops[0]);
      if SingleCall(ops[0].action) {
        OneLinePerCall(t, cwd, directory, mime, ops[0]);
      }
      LinePerOperation(o.tree, cwd, directory, mime, ops[1..]);
    }
  }

  /**
   * `create_folder` of a destination that already exists as a directory
   * changes nothing: running the same `create_folder` again reports the
   * same line and leaves the disk as the first run left it.
   */
  lemma CreateFolderStable(t: Tree, cwd: Path, directory: string, mime: string -> Option<string>, op: Operation)
    requires op.action == "create_folder"
    ensures var once := StepSpec(t, cwd, directory, mime, op);
            StepSpec(once.tree, cwd, directory, mime, op) == once
  {
  }

  /**
   * `create_folder` is idempotent: running it twice reports its line twice
   * and leaves the disk as running it once.
   */
  lemma CreateFolderTwice(t: Tree, cwd: Path, directory: string, mime: string -> Option<string>, op: Operation)
    requires op.action == "create_folder"
    ensures var once := Run(t, cwd, directory, mime, [op]);
            Run(t, cwd, directory, mime, [op, op]) == Outcome(once.tree, once.lines + once.lines)
  {
    var first := StepSpec(t, cwd, directory, mime, op);
    CreateFolderStable(t, cwd, directory, mime, op);
    assert [op, op][1..] == [op];
    assert [op][1..] == [];
    assert StepSpec(first.tree, cwd, directory, mime, op) == first;
    assert Run(first.tree, cwd, directory, mime, [op])
        == Prepend(first.lines, Run(first.tree, cwd, directory, mime, []));
    assert first.lines + [] == first.lines;
    assert Run(t, cwd, directory, mime, [op]) == first;
    assert Run(t, cwd, directory, mime, [op, op])
        == Prepend(first.lines, Run(first.tree, cwd, directory, mime, [op]));
  }

  /**
   * On a well-formed disk, `create_folder` fails exactly when the joined
   * path is empty or a file sits at it or above it; otherwise the folder is
   * a directory afterwards, every old entry is kept, and the only new
   * entries are directories on the way to it.
   */
  lemma CreateFolderOutcome(t: Tree, cwd: Path, directory: string, mime: string -> Option<string>, op: Operation)
    requires WellFormed(t) && op.action == "create_folder"
    ensures var o := StepSpec(t, cwd, directory, mime, op);
            var s := PathJoin(directory, op.destination);
            var p := Resolve(cwd, s);
            && (o.lines == ["Created folder: " + op.destination] <==> s != "" && !FileOnWay(t, p))
            && (o.lines != ["Created folder: " + op.destination] ==> o.tree == t)
            && (o.lines == ["Created folder: " + op.destination] ==>
                  && IsDirAt(o.tree, p)
                  && (forall q :: q in t ==> q in o.tree && o.tree[q] == t[q])
                  && (forall q :: q in o.tree && q !in t ==> Under(p, q) && o.tree[q] == Dir))
  {
    var s := PathJoin(directory, op.destination);
    var p := Resolve(cwd, s);
    MakedirsFails(t, p);
    var r := OsMakedirs(t, cwd, s);
    if r.Err? {
      assert ErrorLine(op.action, r.error)[0] != ("Created folder: " + op.destination)[0];
    }
  }

  /**
   * `delete` always reports `Deleted: <source>`. When the source names an
   * entry, that entry and everything below it are gone and nothing else
   * changes; when it names nothing, the disk is unchanged.
   */
  lemma DeleteOutcome(t: Tree, cwd: Path, directory: string, mime: string -> Option<string>, op: Operation)
    requires op.action == "delete"
    ensures var o := StepSpec(t, cwd, directory, mime, op);
            var s := PathJoin(directory, op.source);
            var p := Resolve(cwd, s);
            && o.lines == ["Deleted: " + op.source]
            && (s == "" || p !in t ==> o.tree == t)
            && (s != "" && p in t ==>
                  && (forall q :: q in o.tree <==> q in t && !Under(q, p))
                  && (forall q :: q in o.tree ==> o.tree[q] == t[q]))
            && (WellFormed(t) ==> WellFormed(o.tree))
  {
    var s := PathJoin(directory, op.source);
    var p := Resolve(cwd, s);
    if s != "" && p in t {
      assert OsIsFile(t, cwd, s) || OsIsDir(t, cwd, s);
      if WellFormed(t) {
        RemoveTreeWellFormed(t, p);
      }
    }
  }

  /**
   * `rename` of a file onto a free place (or onto another file) in an
   * existing directory: the file sits at its new place with its contents,
   * nothing else changes, and the success line is reported.
   */
  lemma RenameFileOutcome(t: Tree, cwd: Path, directory: string, mime: string -> Option<string>, op: Operation)
    requires op.action == "rename" && WellFormed(t)
    requires PathJoin(directory, op.source) != "" && PathJoin(directory, op.destination) != ""
    requires var src, dst := Resolve(cwd, PathJoin(directory, op.source)), Resolve(cwd, PathJoin(directory, op.destination));
             && IsFileAt(t, src) && src != dst && dst != [] && IsDirAt(t, Parent(dst)) && !IsDirAt(t, dst)
             && !Under(dst, src) && !Under(src, dst)
    ensures var src, dst := Resolve(cwd, PathJoin(directory, op.source)), Resolve(cwd, PathJoin(directory, op.destination));
            StepSpec(t, cwd, directory, mime, op)
            == Outcome((t - {src})[dst := t[src]], ["Renamed: " + op.source + Arrow + op.destination])
  {
    var src, dst := Resolve(cwd, PathJoin(directory, op.source)), Resolve(cwd, PathJoin(directory, op.destination));
    RenameFile(t, src, dst);
  }

  /**
   * `rename` of a source that names nothing raises, reports it, and changes
   * nothing: "not a directory" when a file lies on the way to the source,
   * "no such file or directory" otherwise.
   */
  lemma RenameMissingOutcome(t: Tree, cwd: Path, directory: string, mime: string -> Option<string>, op: Operation)
    requires op.action == "rename"
    requires PathJoin(directory, op.source) != "" && PathJoin(directory, op.destination) != ""
    requires Resolve(cwd, PathJoin(directory, op.source)) !in t
    ensures var src := Resolve(cwd, PathJoin(directory, op.source));
            src != [] && FileOnWay(t, Parent(src)) ==>
              StepSpec(t, cwd, directory, mime, op) == Outcome(t, [ErrorLine("rename", NotADirectory(src))])
    ensures var src := Resolve(cwd, PathJoin(directory, op.source));
            src == [] || !FileOnWay(t, Parent(src)) ==>
              StepSpec(t, cwd, directory, mime, op) == Outcome(t, [ErrorLine("rename", NotFound(src))])
  {
  }

  /**
   * `move` of a file to `<folder>/<name>`, with `folder` and `name` plain
   * names: the folder is made first if it is missing, the file then sits in
   * it with its contents, the success line is reported, every other old
   * entry is kept, and the only other new entries are the directories made
   * on the way to the folder.
   */
  lemma MoveIntoFolderOutcome(t: Tree, cwd: Path, directory: string, mime: string -> Option<string>,
                              op: Operation, folder: string, name: string)
    requires op.action == "move" && WellFormed(t) && PlainPath(cwd)
    requires IsPlain(folder) && IsPlain(name) && op.destination == folder + "/" + name
    requires PathJoin(directory, op.source) != ""
    requires var src, fd := Resolve(cwd, PathJoin(directory, op.source)), Resolve(cwd, directory) + [folder];
             && IsFileAt(t, src) && !FileOnWay(t, fd) && fd + [name] !in t && !Under(fd + [name], src)
    ensures var o := StepSpec(t, cwd, directory, mime, op);
            var src, fd := Resolve(cwd, PathJoin(directory, op.source)), Resolve(cwd, directory) + [folder];
            && o.lines == ["Moved: " + op.source + Arrow + op.destination]
            && IsDirAt(o.tree, fd)
            && fd + [name] in o.tree && o.tree[fd + [name]] == t[src] && src !in o.tree
            && (forall q :: q in t && q != src ==> q in o.tree && o.tree[q] == t[q])
            && (forall q :: q in o.tree && q !in t ==> q == fd + [name] || (Under(fd, q) && o.tree[q] == Dir))
  {
    var src, fd := Resolve(cwd, PathJoin(directory, op.source)), Resolve(cwd, directory) + [folder];
    var fs := PathJoin(directory, folder);
    JoinNested(directory, folder, name);
    JoinPlainName(cwd, directory, folder);
    JoinPlainName(cwd, fs, name);
    JoinEndsWithName(directory, folder);
    DirnameJoin(fs, name);
    var dstText := PathJoin(directory, op.destination);
    assert Dirname(dstText) == fs && Resolve(cwd, dstText) == fd + [name];
    MoveFileInto(t, src, fd, name);
  }

  /** The disk-level half of `MoveIntoFolderOutcome`: `makedirs` of the folder, then the move. */
  lemma MoveFileInto(t: Tree, src: Path, fd: Path, name: string)
    requires WellFormed(t) && PlainPath(fd) && fd != []
    requires IsFileAt(t, src) && !FileOnWay(t, fd) && fd + [name] !in t && !Under(fd + [name], src)
    ensures Makedirs(t, fd).Ok?
    ensures var t1 := Makedirs(t, fd).value;
            var r := MoveTree(t1, src, fd + [name]);
            && r.Ok?
            && IsDirAt(r.value, fd)
            && fd + [name] in r.value && r.value[fd + [name]] == t[src] && src !in r.value
            && (forall q :: q in t && q != src ==> q in r.value && r.value[q] == t[q])
            && (forall q :: q in r.value && q !in t ==> q == fd + [name] || (Under(fd, q) && r.value[q] == Dir))
  {
    var dst := fd + [name];
    MakedirsFails(t, fd);
    var t1 := Makedirs(t, fd).value;
    MakedirsWellFormed(t, fd);
    assert dst !in t1;
    assert !Under(src, dst) by {
      if Under(src, dst) { EntryBelowExists(t1, dst, src); }
    }
    assert Parent(dst) == fd;
    RenameFile(t1, src, dst);
  }
}

=== FILE: ordering.dfy ===
/**
 * The order in which a directory lists its entries.
 *
 * `os.listdir` returns names in an order the operating system chooses. The
 * model fixes one: the lexicographic order on code points. The order of
 * the snapshot rows and of the names in the prompt follows it, and so does
 * the order in which `organize_by_type` meets types and files: that decides
 * the order of its summary lines and, since it stops at the first error,
 * which groups and files have moved by then and which error it reports.
 */
module Ordering {

  /** `a` comes strictly before `b` in lexicographic code-point order. */
  predicate Before(a: string, b: string)
    decreases |a|
  {
    if a == [] then b != []
    else if b == [] then false
    else if a[0] != b[0] then a[0] < b[0]
    else Before(a[1..], b[1..])
  }

  lemma {:induction false} BeforeIrreflexive(a: string)
    ensures !Before(a, a)
    decreases |a|
  {
    if a != [] {
      BeforeIrreflexive(a[1..]);
    }
  }

  lemma {:induction false} BeforeTransitive(a: string, b: string, c: string)
    requires Before(a, b) && Before(b, c)
    ensures Before(a, c)
    decreases |a|
  {
    if a != [] && b != [] && c != [] && a[0] == b[0] && b[0] == c[0] {
      BeforeTransitive(a[1..], b[1..], c[1..]);
    }
  }

  lemma {:induction false} BeforeTotal(a: string, b: string)
    ensures a == b || Before(a, b) || Before(b, a)
    decreases |a|
  {
    if a != [] && b != [] && a[0] == b[0] {
      BeforeTotal(a[1..], b[1..]);
      if a[1..] == b[1..] {
        assert a == [a[0]] + a[1..] && b == [b[0]] + b[1..];
      }
    }
  }

  /** `m` is the first element of `s` in the order. */
  predicate IsLeast(m: string, s: set<string>) {
    m in s && forall y :: y in s && y != m ==> Before(m, y)
  }

  /** Every non-empty finite set of names has a first element. */
  lemma {:induction false} LeastExists(s: set<string>)
    requires s != {}
    ensures exists m :: IsLeast(m, s)
    decreases |s|
  {
    var x :| x in s;
    if s == {x} {
      assert IsLeast(x, s);
    } else {
      LeastExists(s - {x});
      var m :| IsLeast(m, s - {x});
      BeforeTotal(x, m);
      if Before(x, m) {
        forall y | y in s && y != x ensures Before(x, y) {
          if y != m { BeforeTransitive(x, m, y); }
        }
        assert IsLeast(x, s);
      } else {
        assert IsLeast(m, s);
      }
    }
  }

  /** The first element is unique. */
  lemma LeastUnique(m: string, m': string, s: set<string>)
    requires IsLeast(m, s) && IsLeast(m', s)
    ensures m == m'
  {
    if m != m' {
      BeforeTransitive(m, m', m);
      BeforeIrreflexive(m);
    }
  }

  /** The sequence is strictly increasing (and so has no duplicates). */
  predicate Increasing(r: seq<string>) {
    forall i, j :: 0 <= i < j < |r| ==> Before(r[i], r[j])
  }

  lemma IncreasingDistinct(r: seq<string>, i: int, j: int)
    requires Increasing(r) && 0 <= i < j < |r|
    ensures r[i] != r[j]
  {
    BeforeIrreflexive(r[i]);
  }

  /** The first element of a non-empty set of names. */
  ghost function Least(s: set<string>): (m: string)
    requires s != {}
    ensures IsLeast(m, s)
  {
    LeastExists(s);
    var m :| IsLeast(m, s);
    m
  }

  /** The names of `s` in listing order. */
  ghost function Enumerate(s: set<string>): (r: seq<string>)
    ensures |r| == |s|
    ensures forall x :: x in r <==> x in s
    decreases |s|
  {
    if s == {} then [] else [Least(s)] + Enumerate(s - {Least(s)})
  }

  /** The listing is in increasing order, so it holds no name twice. */
  lemma {:induction false} EnumerateIncreasing(s: set<string>)
    ensures Increasing(Enumerate(s))
    decreases |s|
  {
    if s != {} {
      var r := Enumerate(s);
      var m := Least(s);
      var rest := Enumerate(s - {m});
      assert r == [m] + rest;
      EnumerateIncreasing(s - {m});
      forall i, j | 0 <= i < j < |r| ensures Before(r[i], r[j]) {
        if i == 0 {
          assert r[j] == rest[j - 1] && r[j] in s - {m};
        } else {
          assert r[i] == rest[i - 1] && r[j] == rest[j - 1];
        }
      }
    }
  }

  /** Taking the first remaining name extends the listing so far by one. */
  lemma EnumerateStep(names: seq<string>, m: string, rest: set<string>)
    requires IsLeast(m, rest)
    ensures names + Enumerate(rest) == (names + [m]) + Enumerate(rest - {m})
  {
    LeastUnique(m, Least(rest), rest);
    assert Enumerate(rest) == [m] + Enumerate(rest - {m});
  }
}

=== FILE: organize.dfy ===
/**
 * What `organize_by_type` achieves when nothing is in its way: every regular
 * file of a known type ends up in the folder named after its capitalized
 * type, with its contents, and the report has one summary line per known
 * type and no error.
 */
module Organize {
  import opened Wrappers
  import opened Paths
  import opened Ordering
  import opened FileSystem
  import opened FileTypes
  import opened Snapshot
  import opened Executor

  predicate Distinct(s: seq<string>) {
    forall i, j :: 0 <= i < j < |s| ==> s[i] != s[j]
  }

  lemma {:induction false} RegularFilesDistinct(t: Tree, cwd: Path, directory: string, names: seq<string>)
    requires Distinct(names)
    ensures Distinct(RegularFiles(t, cwd, directory, names))
  {
    if names != [] {
      RegularFilesDistinct(t, cwd, directory, names[..|names| - 1]);
    }
  }

  lemma {:induction false} FilesOfTypeDistinct(kind: string -> string, files: seq<string>, ty: string)
    requires Distinct(files)
    ensures Distinct(FilesOfType(kind, files, ty))
  {
    if files != [] {
      FilesOfTypeDistinct(kind, files[..|files| - 1], ty);
    }
  }

  /** The folder a file of the directory `d` is sorted into. */
  function Folder(d: Path, kind: string -> string, f: string): Path {
    d + [Capitalize(kind(f))]
  }

  /** Where a file of the directory `d` ends up. */
  function Dest(d: Path, kind: string -> string, f: string): Path {
    d + [Capitalize(kind(f)), f]
  }

  /** `f` is a regular file directly in `d` whose type is known: one that gets moved. */
  ghost predicate Movable(t: Tree, d: Path, kind: string -> string, f: string) {
    d + [f] in t && t[d + [f]].File? && kind(f) != "unknown"
  }

  /**
   * Nothing is in the way: each file to move has a type whose capitalized
   * form is a plain name, that name is not taken by a file, and the file's
   * destination is free.
   */
  ghost predicate Ready(t: Tree, d: Path, kind: string -> string) {
    WellFormed(t) && IsDirAt(t, d) && Clear(t, d, kind)
  }

  ghost predicate Clear(t: Tree, d: Path, kind: string -> string) {
    forall f {:trigger Movable(t, d, kind, f)} :: Movable(t, d, kind, f) ==>
      IsPlain(Capitalize(kind(f))) && !IsFileAt(t, Folder(d, kind, f)) && Dest(d, kind, f) !in t
  }

  /** `p` is the old place of one of the files in `done`. */
  predicate MovedFrom(p: Path, d: Path, done: set<string>) {
    |p| == |d| + 1 && p[..|d|] == d && p[|d|] in done
  }

  /** The files in `done` are gone from `d` and sit at their destinations, unchanged. */
  ghost predicate MovedAway(t0: Tree, t: Tree, d: Path, kind: string -> string, done: set<string>) {
    forall f {:trigger f in done} :: f in done ==>
      && Movable(t0, d, kind, f)
      && d + [f] !in t && Dest(d, kind, f) in t && t[Dest(d, kind, f)] == t0[d + [f]]
  }

  /** The files still to move are where they were, and their destinations are free. */
  ghost predicate Pending(t0: Tree, t: Tree, d: Path, kind: string -> string, done: set<string>) {
    forall f {:trigger Movable(t0, d, kind, f)} :: Movable(t0, d, kind, f) && f !in done ==>
      d + [f] in t && t[d + [f]] == t0[d + [f]] && Dest(d, kind, f) !in t
  }

  /** No type folder is a file. */
  ghost predicate FoldersFree(t0: Tree, t: Tree, d: Path, kind: string -> string) {
    forall f {:trigger Movable(t0, d, kind, f)} :: Movable(t0, d, kind, f) ==> !IsFileAt(t, Folder(d, kind, f))
  }

  /** Every old entry other than a moved file is still there, unchanged. */
  ghost predicate Kept(t0: Tree, t: Tree, d: Path, done: set<string>) {
    forall p {:trigger p in t0} :: p in t0 && !MovedFrom(p, d, done) ==> p in t && t[p] == t0[p]
  }

  /** Every new entry is a type folder or a moved file. */
  ghost predicate OnlyPlaced(t0: Tree, t: Tree, d: Path, kind: string -> string) {
    forall p :: p in t && p !in t0 ==>
      exists f {:trigger Movable(t0, d, kind, f)} :: Movable(t0, d, kind, f) && (p == Folder(d, kind, f) || p == Dest(d, kind, f))
  }

  /** Every file to move has left `d` and sits at its destination, unchanged. */
  ghost predicate AllMoved(t0: Tree, t: Tree, d: Path, kind: string -> string) {
    forall f {:trigger Movable(t0, d, kind, f)} :: Movable(t0, d, kind, f) ==>
      d + [f] !in t && Dest(d, kind, f) in t && t[Dest(d, kind, f)] == t0[d + [f]]
  }

  /** Every old entry that is not a file to move is still there, unchanged. */
  ghost predicate OthersKept(t0: Tree, t: Tree, d: Path, kind: string -> string) {
    forall p {:trigger p in t0} :: p in t0 && !(|p| == |d| + 1 && p[..|d|] == d && Movable(t0, d, kind, p[|d|])) ==>
      p in t && t[p] == t0[p]
  }

  /** The disk `t` after the files in `done` have been moved from the disk `t0`. */
  ghost predicate Placed(t0: Tree, t: Tree, d: Path, kind: string -> string, done: set<string>) {
    && WellFormed(t) && IsDirAt(t, d)
    && MovedAway(t0, t, d, kind, done)
    && Pending(t0, t, d, kind, done)
    && FoldersFree(t0, t, d, kind)
    && Kept(t0, t, d, done)
    && OnlyPlaced(t0, t, d, kind)
  }

  /** Nothing has moved yet. */
  lemma PlacedInitially(t: Tree, d: Path, kind: string -> string)
    requires Ready(t, d, kind)
    ensures Placed(t, t, d, kind, {})
  {
  }

  /** A folder name of a file to move is never the name of a file to move. */
  lemma FolderIsNoSource(t0: Tree, d: Path, kind: string -> string, f: string, g: string)
    requires Clear(t0, d, kind) && Movable(t0, d, kind, f) && d + [g] in t0 && t0[d + [g]].File?
    ensures Folder(d, kind, f) != d + [g]
  {
  }

  /** `os.makedirs` of a type folder succeeds and keeps the invariant. */
  lemma MakeFolderStep(t0: Tree, t: Tree, cwd: Path, directory: string, kind: string -> string,
                       done: set<string>, f: string)
    requires Ready(t0, Resolve(cwd, directory), kind)
    requires Placed(t0, t, Resolve(cwd, directory), kind, done)
    requires Movable(t0, Resolve(cwd, directory), kind, f)
    ensures var r := OsMakedirs(t, cwd, PathJoin(directory, Capitalize(kind(f))));
            && r.Ok?
            && Placed(t0, r.value, Resolve(cwd, directory), kind, done)
            && IsDirAt(r.value, Folder(Resolve(cwd, directory), kind, f))
  {
    var d := Resolve(cwd, directory);
    var c := Capitalize(kind(f));
    var p := d + [c];
    JoinPlainName(cwd, directory, c);
    assert PathJoin(directory, c) != "";
    assert OsMakedirs(t, cwd, PathJoin(directory, c)) == Makedirs(t, p);
    assert Parent(p) == d;
    if p in t {
      assert t[p].Dir?;
      assert Makedirs(t, p) == Ok(t);
    } else {
      assert Makedirs(t, p) == Ok(t[p := Dir]);
      assert PlainPath(p) by { assert PlainPath(d); }
      MakedirsWellFormed(t, p);
      FolderPreserves(t0, t, d, kind, done, f);
    }
  }

  /** The bookkeeping half of `MakeFolderStep`: the invariant after a type folder is made. */
  lemma FolderPreserves(t0: Tree, t: Tree, d: Path, kind: string -> string, done: set<string>, f: string)
    requires Ready(t0, d, kind)
    requires Placed(t0, t, d, kind, done)
    requires Movable(t0, d, kind, f) && Folder(d, kind, f) !in t
    requires WellFormed(t[Folder(d, kind, f) := Dir])
    ensures Placed(t0, t[Folder(d, kind, f) := Dir], d, kind, done)
  {
    FolderKeepsMoved(t0, t, d, kind, done, f);
    FolderKeepsPending(t0, t, d, kind, done, f);
    FolderKeepsOnlyPlaced(t0, t, d, kind, f);
  }

  lemma FolderKeepsMoved(t0: Tree, t: Tree, d: Path, kind: string -> string, done: set<string>, f: string)
    requires Clear(t0, d, kind) && MovedAway(t0, t, d, kind, done) && Movable(t0, d, kind, f)
    ensures MovedAway(t0, t[Folder(d, kind, f) := Dir], d, kind, done)
  {
    var p := Folder(d, kind, f);
    forall g | g in done
      ensures d + [g] != p && Dest(d, kind, g) != p
    {
      FolderIsNoSource(t0, d, kind, f, g);
    }
  }

  lemma FolderKeepsPending(t0: Tree, t: Tree, d: Path, kind: string -> string, done: set<string>, f: string)
    requires Clear(t0, d, kind) && Pending(t0, t, d, kind, done) && Movable(t0, d, kind, f)
    ensures Pending(t0, t[Folder(d, kind, f) := Dir], d, kind, done)
  {
    var p := Folder(d, kind, f);
    forall g | Movable(t0, d, kind, g) && g !in done
      ensures d + [g] != p && Dest(d, kind, g) != p
    {
      FolderIsNoSource(t0, d, kind, f, g);
    }
  }

  lemma FolderKeepsOnlyPlaced(t0: Tree, t: Tree, d: Path, kind: string -> string, f: string)
    requires OnlyPlaced(t0, t, d, kind) && Movable(t0, d, kind, f)
    ensures OnlyPlaced(t0, t[Folder(d, kind, f) := Dir], d, kind)
  {
    var p := Folder(d, kind, f);
    var t' := t[p := Dir];
    forall q | q in t' && q !in t0
      ensures exists g :: Movable(t0, d, kind, g) && (q == Folder(d, kind, g) || q == Dest(d, kind, g))
    {
      if q == p {
        assert Movable(t0, d, kind, f) && q == Folder(d, kind, f);
      }
    }
  }

  /** `shutil.move` of a file into its type folder succeeds and keeps the invariant. */
  lemma MoveStep(t0: Tree, t: Tree, cwd: Path, directory: string, kind: string -> string,
                 done: set<string>, f: string)
    requires Ready(t0, Resolve(cwd, directory), kind)
    requires Placed(t0, t, Resolve(cwd, directory), kind, done)
    requires Movable(t0, Resolve(cwd, directory), kind, f) && f !in done
    requires IsDirAt(t, Folder(Resolve(cwd, directory), kind, f))
    ensures var r := OsMove(t, cwd, PathJoin(directory, f), PathJoin(PathJoin(directory, Capitalize(kind(f))), f));
            && r.Ok?
            && Placed(t0, r.value, Resolve(cwd, directory), kind, done + {f})
            && IsDirAt(r.value, Folder(Resolve(cwd, directory), kind, f))
  {
    var d := Resolve(cwd, directory);
    var c := Capitalize(kind(f));
    assert Folder(d, kind, f) == d + [c];
    MoveCall(t, cwd, directory, c, f);
    assert MovedTree(t, d, kind, f) == (t - {d + [f]})[d + [c, f] := t[d + [f]]];
    MovePreserves(t0, t, d, kind, done, f);
  }

  /** The `shutil.move` call of a file of `directory` into its sibling folder `c`. */
  lemma MoveCall(t: Tree, cwd: Path, directory: string, c: string, f: string)
    requires WellFormed(t) && IsPlain(c)
    requires var d := Resolve(cwd, directory);
             IsFileAt(t, d + [f]) && IsDirAt(t, d + [c]) && d + [c, f] !in t
    ensures var d := Resolve(cwd, directory);
            var r := OsMove(t, cwd, PathJoin(directory, f), PathJoin(PathJoin(directory, c), f));
            && r == Ok((t - {d + [f]})[d + [c, f] := t[d + [f]]])
            && WellFormed(r.value)
  {
    var d := Resolve(cwd, directory);
    var src, dst := d + [f], d + [c, f];
    assert PlainPath(src);
    assert IsPlain(f) by { assert src[|d|] == f; }
    JoinPlainName(cwd, directory, f);
    JoinPlainName(cwd, directory, c);
    JoinPlainName(cwd, PathJoin(directory, c), f);
    assert d + [c] + [f] == dst;
    assert c != f;
    assert !Under(dst, src) by { assert dst[..|src|] == d + [c]; }
    assert !Under(src, dst);
    assert Parent(dst) == d + [c];
    RenameFile(t, src, dst);
    assert PlainPath(dst) by { assert PlainPath(d + [c]); }
    RenameTreeWellFormed(t, src, dst);
  }

  /** The disk after the file `f` of `d` moved to its destination. */
  function MovedTree(t: Tree, d: Path, kind: string -> string, f: string): Tree
    requires d + [f] in t
  {
    (t - {d + [f]})[Dest(d, kind, f) := t[d + [f]]]
  }

  /** The bookkeeping half of `MoveStep`: the invariant after one file moves. */
  lemma MovePreserves(t0: Tree, t: Tree, d: Path, kind: string -> string, done: set<string>, f: string)
    requires Ready(t0, d, kind)
    requires Placed(t0, t, d, kind, done)
    requires Movable(t0, d, kind, f) && f !in done
    requires IsDirAt(t, Folder(d, kind, f))
    requires WellFormed(MovedTree(t, d, kind, f))
    ensures Placed(t0, MovedTree(t, d, kind, f), d, kind, done + {f})
    ensures IsDirAt(MovedTree(t, d, kind, f), Folder(d, kind, f))
  {
    MoveKeepsMoved(t0, t, d, kind, done, f);
    MoveKeepsPending(t0, t, d, kind, done, f);
    MoveKeepsFoldersFree(t0, t, d, kind, f);
    MoveKeepsKept(t0, t, d, kind, done, f);
    MoveKeepsOnlyPlaced(t0, t, d, kind, f);
    FolderIsNoSource(t0, d, kind, f, f);
  }

  lemma MoveKeepsMoved(t0: Tree, t: Tree, d: Path, kind: string -> string, done: set<string>, f: string)
    requires MovedAway(t0, t, d, kind, done) && Pending(t0, t, d, kind, done)
    requires Movable(t0, d, kind, f) && f !in done
    ensures MovedAway(t0, MovedTree(t, d, kind, f), d, kind, done + {f})
  {
    var t' := MovedTree(t, d, kind, f);
    forall g | g in done + {f}
      ensures d + [g] !in t' && Dest(d, kind, g) in t' && t'[Dest(d, kind, g)] == t0[d + [g]]
    {
      assert d + [g] != Dest(d, kind, f);
      if g != f {
        assert Dest(d, kind, g) != Dest(d, kind, f) by { assert Dest(d, kind, g)[|d| + 1] == g; }
      }
    }
  }

  lemma MoveKeepsPending(t0: Tree, t: Tree, d: Path, kind: string -> string, done: set<string>, f: string)
    requires Pending(t0, t, d, kind, done) && Movable(t0, d, kind, f) && f !in done
    ensures Pending(t0, MovedTree(t, d, kind, f), d, kind, done + {f})
  {
    var t' := MovedTree(t, d, kind, f);
    forall g | Movable(t0, d, kind, g) && g !in done + {f}
      ensures d + [g] in t' && t'[d + [g]] == t0[d + [g]] && Dest(d, kind, g) !in t'
    {
      assert d + [g] != d + [f] by { assert (d + [g])[|d|] == g; }
      assert d + [g] != Dest(d, kind, f);
      assert Dest(d, kind, g) != Dest(d, kind, f) by { assert Dest(d, kind, g)[|d| + 1] == g; }
    }
  }

  lemma MoveKeepsFoldersFree(t0: Tree, t: Tree, d: Path, kind: string -> string, f: string)
    requires FoldersFree(t0, t, d, kind) && d + [f] in t
    ensures FoldersFree(t0, MovedTree(t, d, kind, f), d, kind)
  {
    forall g | Movable(t0, d, kind, g) ensures !IsFileAt(MovedTree(t, d, kind, f), Folder(d, kind, g)) {
      assert Folder(d, kind, g) != Dest(d, kind, f);
    }
  }

  lemma MoveKeepsKept(t0: Tree, t: Tree, d: Path, kind: string -> string, done: set<string>, f: string)
    requires Clear(t0, d, kind) && Kept(t0, t, d, done) && Movable(t0, d, kind, f) && d + [f] in t
    ensures Kept(t0, MovedTree(t, d, kind, f), d, done + {f})
  {
    var t' := MovedTree(t, d, kind, f);
    forall p | p in t0 && !MovedFrom(p, d, done + {f}) ensures p in t' && t'[p] == t0[p] {
      assert p != Dest(d, kind, f);
    }
  }

  lemma MoveKeepsOnlyPlaced(t0: Tree, t: Tree, d: Path, kind: string -> string, f: string)
    requires OnlyPlaced(t0, t, d, kind) && Movable(t0, d, kind, f) && d + [f] in t
    ensures OnlyPlaced(t0, MovedTree(t, d, kind, f), d, kind)
  {
    forall p | p in MovedTree(t, d, kind, f) && p !in t0
      ensures exists g :: Movable(t0, d, kind, g) && (p == Folder(d, kind, g) || p == Dest(d, kind, g))
    {
      if p == Dest(d, kind, f) {
        assert Movable(t0, d, kind, f) && p == Dest(d, kind, f);
      } else {
        assert p in t;
      }
    }
  }

  /** The names in `fs`, as a set. */
  function Elements(fs: seq<string>): (r: set<string>)
    ensures forall g :: g in r <==> g in fs
  {
    if fs == [] then {} else {fs[0]} + Elements(fs[1..])
  }

  /** Regrouping a union; kept as a lemma so `MoveAllStep` stays small. */
  lemma UnionAssociates(a: set<string>, b: set<string>, c: set<string>)
    ensures (a + b) + c == a + (b + c)
  {
  }

  lemma TailFresh(fs: seq<string>, done: set<string>)
    requires fs != [] && Distinct(fs) && forall g :: g in fs ==> g !in done
    ensures Distinct(fs[1..]) && forall g :: g in fs[1..] ==> g !in done + {fs[0]}
  {
    forall g | g in fs[1..] ensures g != fs[0] {
      var k :| 1 <= k < |fs| && fs[k] == g;
    }
  }

  /** Moving one type's files one after another succeeds and keeps the invariant. */
  lemma {:induction false} MoveAllStep(t0: Tree, t: Tree, cwd: Path, directory: string, kind: string -> string,
                                       done: set<string>, ty: string, fs: seq<string>)
    requires Ready(t0, Resolve(cwd, directory), kind)
    requires Placed(t0, t, Resolve(cwd, directory), kind, done)
    requires Distinct(fs)
    requires forall g :: g in fs ==> Movable(t0, Resolve(cwd, directory), kind, g) && kind(g) == ty && g !in done
    requires IsDirAt(t, Resolve(cwd, directory) + [Capitalize(ty)])
    ensures var r := MoveAll(t, cwd, directory, PathJoin(directory, Capitalize(ty)), fs);
            && r.Done?
            && Placed(t0, r.tree, Resolve(cwd, directory), kind, done + Elements(fs))
            && IsDirAt(r.tree, Resolve(cwd, directory) + [Capitalize(ty)])
    decreases |fs|
  {
    var d := Resolve(cwd, directory);
    if fs == [] {
      assert done + Elements(fs) == done;
    } else {
      var f := fs[0];
      var folder := PathJoin(directory, Capitalize(ty));
      assert Folder(d, kind, f) == d + [Capitalize(ty)];
      MoveStep(t0, t, cwd, directory, kind, done, f);
      var t1 := OsMove(t, cwd, PathJoin(directory, f), PathJoin(folder, f)).value;
      assert MoveAll(t, cwd, directory, folder, fs) == MoveAll(t1, cwd, directory, folder, fs[1..]);
      TailFresh(fs, done);
      MoveAllStep(t0, t1, cwd, directory, kind, done + {f}, ty, fs[1..]);
      assert Elements(fs) == {f} + Elements(fs[1..]);
      UnionAssociates(done, {f}, Elements(fs[1..]));
    }
  }

  /** One summary line per known type, in the order the types were met. */
  function Summaries(kind: string -> string, files: seq<string>, types: seq<string>): seq<string> {
    if types == [] then []
    else if types[0] == "unknown" then Summaries(kind, files, types[1..])
    else [SummaryLine(types[0], |FilesOfType(kind, files, types[0])|)] + Summaries(kind, files, types[1..])
  }

  /** The files the whole operation moves. */
  function AllMovable(kind: string -> string, files: seq<string>): set<string> {
    set g | g in files && kind(g) != "unknown"
  }

  /** Placing the groups of the remaining types succeeds, one summary line each. */
  lemma {:induction false} PlaceGroupsStep(t0: Tree, t: Tree, cwd: Path, directory: string,
                                           kind: string -> string, files: seq<string>, types: seq<string>,
                                           done: set<string>)
    requires Ready(t0, Resolve(cwd, directory), kind)
    requires Placed(t0, t, Resolve(cwd, directory), kind, done)
    requires forall g :: g in files <==> Resolve(cwd, directory) + [g] in t0 && t0[Resolve(cwd, directory) + [g]].File?
    requires Distinct(files)
    requires TypesLeft(kind, files, types, done)
    ensures var o := PlaceGroups(t, cwd, directory, kind, files, types);
            && o.lines == Summaries(kind, files, types)
            && Placed(t0, o.tree, Resolve(cwd, directory), kind, AllMovable(kind, files))
    decreases |types|
  {
    if types == [] {
      AllDone(kind, files, done);
    } else if types[0] == "unknown" {
      SkipUnknown(kind, files, types, done);
      PlaceGroupsStep(t0, t, cwd, directory, kind, files, types[1..], done);
    } else {
      var ty := types[0];
      var fs := FilesOfType(kind, files, ty);
      NextGroup(kind, files, types, done);
      PlaceGroupStep(t0, t, cwd, directory, kind, files, ty, done);
      var t2 := PlaceGroup(t, cwd, directory, ty, fs).tree;
      assert PlaceGroups(t, cwd, directory, kind, files, types)
          == Prepend([SummaryLine(ty, |fs|)], PlaceGroups(t2, cwd, directory, kind, files, types[1..]));
      PlaceGroupsStep(t0, t2, cwd, directory, kind, files, types[1..], done + Elements(fs));
    }
  }

  /** `done` holds exactly the files of a known type whose type is no longer in `types`. */
  predicate TypesLeft(kind: string -> string, files: seq<string>, types: seq<string>, done: set<string>) {
    && Distinct(types)
    && (forall ty :: ty in types ==> ty in Types(kind, files))
    && (forall g :: g in done ==> g in files && kind(g) != "unknown")
    && (forall g :: g in files && kind(g) != "unknown" ==> (g in done <==> kind(g) !in types))
  }

  lemma AllDone(kind: string -> string, files: seq<string>, done: set<string>)
    requires TypesLeft(kind, files, [], done)
    ensures done == AllMovable(kind, files)
  {
  }

  lemma SkipUnknown(kind: string -> string, files: seq<string>, types: seq<string>, done: set<string>)
    requires TypesLeft(kind, files, types, done) && types != [] && types[0] == "unknown"
    ensures TypesLeft(kind, files, types[1..], done)
  {
    forall g | g in files && kind(g) != "unknown" ensures kind(g) in types <==> kind(g) in types[1..] {
      if kind(g) in types {
        var k :| 0 <= k < |types| && types[k] == kind(g);
        assert types[1..][k - 1] == kind(g);
      }
    }
  }

  lemma NextGroup(kind: string -> string, files: seq<string>, types: seq<string>, done: set<string>)
    requires TypesLeft(kind, files, types, done) && types != [] && types[0] != "unknown"
    ensures types[0] in Types(kind, files)
    ensures forall g :: g in files && kind(g) == types[0] ==> g !in done
    ensures TypesLeft(kind, files, types[1..], done + Elements(FilesOfType(kind, files, types[0])))
  {
    var ty := types[0];
    forall g | g in files && kind(g) != "unknown" && kind(g) != ty
      ensures kind(g) in types <==> kind(g) in types[1..]
    {
      if kind(g) in types {
        var k :| 0 <= k < |types| && types[k] == kind(g);
        assert types[1..][k - 1] == kind(g);
      }
    }
  }

  /** Making one type's folder and moving its files into it succeeds and keeps the invariant. */
  lemma PlaceGroupStep(t0: Tree, t: Tree, cwd: Path, directory: string, kind: string -> string,
                       files: seq<string>, ty: string, done: set<string>)
    requires Ready(t0, Resolve(cwd, directory), kind)
    requires Placed(t0, t, Resolve(cwd, directory), kind, done)
    requires forall g :: g in files <==> Resolve(cwd, directory) + [g] in t0 && t0[Resolve(cwd, directory) + [g]].File?
    requires Distinct(files) && ty in Types(kind, files) && ty != "unknown"
    requires forall g :: g in files && kind(g) == ty ==> g !in done
    ensures var r := PlaceGroup(t, cwd, directory, ty, FilesOfType(kind, files, ty));
            r.Done? && Placed(t0, r.tree, Resolve(cwd, directory), kind, done + Elements(FilesOfType(kind, files, ty)))
  {
    var d := Resolve(cwd, directory);
    var i :| 0 <= i < |Types(kind, files)| && Types(kind, files)[i] == ty;
    var f := files[i];
    assert Movable(t0, d, kind, f);
    MakeFolderStep(t0, t, cwd, directory, kind, done, f);
    var folder := PathJoin(directory, Capitalize(ty));
    var t1 := OsMakedirs(t, cwd, folder).value;
    var fs := FilesOfType(kind, files, ty);
    assert PlaceGroup(t, cwd, directory, ty, fs) == MoveAll(t1, cwd, directory, folder, fs);
    FilesOfTypeDistinct(kind, files, ty);
    MoveAllStep(t0, t1, cwd, directory, kind, done, ty, fs);
  }

  /**
   * With nothing in the way, `organize_by_type` raises nothing: it reports
   * one summary line per known type (no error line), moves every regular
   * file of a known type into `<Type>/<name>` with its contents, leaves every
   * other entry as it was, and adds nothing but the type folders and the
   * moved files.
   */
  lemma OrganizeOutcome(t: Tree, cwd: Path, directory: string, mime: string -> Option<string>)
    requires directory != ""
    requires Ready(t, Resolve(cwd, directory), TypeOf(directory, mime))
    ensures var o := OrganizeSpec(t, cwd, directory, mime);
            var kind := TypeOf(directory, mime);
            var d := Resolve(cwd, directory);
            var files := RegularFiles(t, cwd, directory, OsListDir(t, cwd, directory).value);
            && o.lines == Summaries(kind, files, TypeOrder(kind, files))
            && WellFormed(o.tree)
            && AllMoved(t, o.tree, d, kind)
            && OthersKept(t, o.tree, d, kind)
            && OnlyPlaced(t, o.tree, d, kind)
  {
    var kind := TypeOf(directory, mime);
    var d := Resolve(cwd, directory);
    ListedFiles(t, cwd, directory, kind);
    var files := RegularFiles(t, cwd, directory, OsListDir(t, cwd, directory).value);
    var order := TypeOrder(kind, files);
    assert OrganizeSpec(t, cwd, directory, mime) == PlaceGroups(t, cwd, directory, kind, files, order);
    assert TypesLeft(kind, files, order, {});
    PlacedInitially(t, d, kind);
    PlaceGroupsStep(t, t, cwd, directory, kind, files, order, {});
    var o := OrganizeSpec(t, cwd, directory, mime);
    PlacedFinally(t, o.tree, d, kind, files);
  }

  /** The listing succeeds, and the regular files it yields are those of the directory, once each. */
  lemma ListedFiles(t: Tree, cwd: Path, directory: string, kind: string -> string)
    requires directory != "" && WellFormed(t) && IsDirAt(t, Resolve(cwd, directory))
    ensures OsListDir(t, cwd, directory).Ok?
    ensures var files := RegularFiles(t, cwd, directory, OsListDir(t, cwd, directory).value);
            && Distinct(files)
            && forall g :: g in files <==> Resolve(cwd, directory) + [g] in t && t[Resolve(cwd, directory) + [g]].File?
  {
    var d := Resolve(cwd, directory);
    var names := OsListDir(t, cwd, directory).value;
    var files := RegularFiles(t, cwd, directory, names);
    forall i, j | 0 <= i < j < |names| ensures names[i] != names[j] {
      IncreasingDistinct(names, i, j);
    }
    RegularFilesDistinct(t, cwd, directory, names);
    forall g ensures g in files <==> d + [g] in t && t[d + [g]].File? {
      if d + [g] in t {
        ChildPath(t, cwd, directory, g);
      }
    }
  }

  /** Once every file to move has moved, the invariant says what the ensures of `OrganizeOutcome` say. */
  lemma PlacedFinally(t: Tree, t': Tree, d: Path, kind: string -> string, files: seq<string>)
    requires forall g :: g in files <==> d + [g] in t && t[d + [g]].File?
    requires Placed(t, t', d, kind, AllMovable(kind, files))
    ensures WellFormed(t') && AllMoved(t, t', d, kind) && OthersKept(t, t', d, kind) && OnlyPlaced(t, t', d, kind)
  {
    var all := AllMovable(kind, files);
    forall f | Movable(t, d, kind, f) ensures f in all {
    }
    forall p | p in t && !(|p| == |d| + 1 && p[..|d|] == d && Movable(t, d, kind, p[|d|]))
      ensures !MovedFrom(p, d, all)
    {
    }
  }
}

=== FILE: paths.dfy ===
/**
 * Path strings and their resolution.
 *
 * The file manager builds every path with `os.path.join(directory, x)` and
 * hands the string to the operating system, which resolves it against the
 * process's working directory. A resolved location is the sequence of its
 * components below the root. Resolution here is lexical: empty and `.`
 * components are skipped and `..` steps to the parent (the root is its own
 * parent). Nothing keeps a resolved path inside the managed directory.
 */
module Paths {

  /** A resolved location: its components from the root, `[]` being `/`. */
  type Path = seq<string>

  /** A single directory entry name: not empty, not `.` or `..`, no slash. */
  predicate IsPlain(name: string) {
    name != "" && name != "." && name != ".." && '/' !in name
  }

  /** Every component of `p` is a plain entry name. */
  predicate PlainPath(p: Path) {
    forall i :: 0 <= i < |p| ==> IsPlain(p[i])
  }

  /** `p` lies at or below `q`: `q` is a prefix of `p`. */
  predicate Under(p: Path, q: Path) {
    |q| <= |p| && p[..|q|] == q
  }

  /** Python's `s.split('/')`: the pieces between the slashes, at least one. */
  function Split(s: string): (r: seq<string>)
    ensures |r| >= 1
    ensures forall i :: 0 <= i < |r| ==> '/' !in r[i]
    decreases |s|
  {
    if s == [] then [""]
    else
      var rest := Split(s[1..]);
      if s[0] == '/' then [""] + rest
      else [[s[0]] + rest[0]] + rest[1..]
  }

  /** `'/'.join(parts)`: the inverse of `Split`. */
  function JoinSlash(parts: seq<string>): string
    requires |parts| >= 1
    decreases |parts|
  {
    if |parts| == 1 then parts[0] else parts[0] + "/" + JoinSlash(parts[1..])
  }

  /** Splitting at the slashes loses nothing: joining the pieces gives the string back. */
  lemma {:induction false} JoinSplit(s: string)
    ensures JoinSlash(Split(s)) == s
    decreases |s|
  {
    if s != [] {
      JoinSplit(s[1..]);
      var rest := Split(s[1..]);
      if s[0] == '/' {
        assert s == "/" + s[1..];
      } else if |rest| == 1 {
        assert s == [s[0]] + rest[0];
      } else {
        assert JoinSlash(rest) == rest[0] + "/" + JoinSlash(rest[1..]);
        assert s == [s[0]] + s[1..];
      }
    }
  }

  /** A string without a slash is a single piece. */
  lemma {:induction false} SplitNoSlash(s: string)
    requires '/' !in s
    ensures Split(s) == [s]
    decreases |s|
  {
    if s != [] {
      assert '/' !in s[1..] by {
        forall i | 0 <= i < |s[1..]| ensures s[1..][i] != '/' {
          assert s[1..][i] == s[i + 1];
        }
      }
      SplitNoSlash(s[1..]);
      assert s == [s[0]] + s[1..];
    }
  }

  /** A slash between two strings separates their pieces. */
  lemma {:induction false} SplitAroundSlash(a: string, b: string)
    ensures Split(a + "/" + b) == Split(a) + Split(b)
    decreases |a|
  {
    if a == [] {
      assert a + "/" + b == "/" + b;
      assert ("/" + b)[1..] == b;
    } else {
      var s := a + "/" + b;
      assert s[0] == a[0];
      assert s[1..] == a[1..] + "/" + b;
      SplitAroundSlash(a[1..], b);
    }
  }

  /** One component step of the lexical walk. */
  function Step(p: Path, segment: string): (r: Path)
    ensures PlainPath(p) && '/' !in segment ==> PlainPath(r)
  {
    if segment == "" || segment == "." then p
    else if segment == ".." then (if p == [] then [] else p[..|p| - 1])
    else p + [segment]
  }

  /** Walks the pieces of a split path string, starting at `p`. */
  function Walk(p: Path, segments: seq<string>): (r: Path)
    decreases |segments|
  {
    if segments == [] then p else Walk(Step(p, segments[0]), segments[1..])
  }

  /** Walking stays among plain names when it starts among them. */
  lemma {:induction false} WalkPlain(p: Path, segments: seq<string>)
    requires PlainPath(p)
    requires forall i :: 0 <= i < |segments| ==> '/' !in segments[i]
    ensures PlainPath(Walk(p, segments))
    decreases |segments|
  {
    if segments != [] {
      WalkPlain(Step(p, segments[0]), segments[1..]);
    }
  }

  /** Walking two runs of pieces is walking the first, then the second. */
  lemma {:induction false} WalkAppend(p: Path, s1: seq<string>, s2: seq<string>)
    ensures Walk(p, s1 + s2) == Walk(Walk(p, s1), s2)
    decreases |s1|
  {
    if s1 == [] {
      assert s1 + s2 == s2;
    } else {
      assert (s1 + s2)[0] == s1[0];
      assert (s1 + s2)[1..] == s1[1..] + s2;
      WalkAppend(Step(p, s1[0]), s1[1..], s2);
    }
  }

  /** True when `s` is an absolute path string. */
  predicate IsAbsolute(s: string) {
    |s| > 0 && s[0] == '/'
  }

  /** Where the operating system finds the path string `s` when the working directory is `cwd`. */
  function Resolve(cwd: Path, s: string): (r: Path)
    ensures PlainPath(cwd) ==> PlainPath(r)
  {
    var base := if IsAbsolute(s) then [] else cwd;
    if PlainPath(base) then WalkPlain(base, Split(s)); Walk(base, Split(s))
    else Walk(base, Split(s))
  }

  /** `os.path.join(a, b)` of posixpath: an absolute `b` discards `a`. */
  function PathJoin(a: string, b: string): (r: string)
    ensures IsAbsolute(b) ==> r == b
    ensures !IsAbsolute(b) ==> |r| >= |a| && r[..|a|] == a
    ensures b != "" ==> r != ""
  {
    if IsAbsolute(b) then b
    else if a == [] || a[|a| - 1] == '/' then a + b
    else a + "/" + b
  }

  /**
   * Joining a plain entry name onto a directory string names that entry of
   * the directory the string resolves to.
   */
  lemma JoinPlainName(cwd: Path, a: string, name: string)
    requires IsPlain(name)
    ensures Resolve(cwd, PathJoin(a, name)) == Resolve(cwd, a) + [name]
  {
    SplitNoSlash(name);
    JoinRelative(cwd, a, name);
    assert Walk(Resolve(cwd, a), [name]) == Walk(Resolve(cwd, a) + [name], []);
  }

  /** An absolute path ignores the directory it is joined to: nothing confines it. */
  lemma AbsoluteEscapes(cwd: Path, a: string, b: string)
    requires IsAbsolute(b)
    ensures Resolve(cwd, PathJoin(a, b)) == Resolve([], b)
  {
  }

  /** Joining a relative path string onto `a` walks its pieces from where `a` resolves to. */
  lemma JoinRelative(cwd: Path, a: string, b: string)
    requires !IsAbsolute(b)
    ensures Resolve(cwd, PathJoin(a, b)) == Walk(Resolve(cwd, a), Split(b))
  {
    if a == [] {
      assert PathJoin(a, b) == b;
      assert Resolve(cwd, a) == Walk(cwd, [""]) == cwd;
    } else if a[|a| - 1] == '/' {
      JoinAfterSlash(cwd, a, b);
    } else {
      JoinAddingSlash(cwd, a, b);
    }
  }

  /** `JoinRelative` for a directory string that ends in a slash. */
  lemma JoinAfterSlash(cwd: Path, a: string, b: string)
    requires a != [] && a[|a| - 1] == '/' && !IsAbsolute(b)
    ensures Resolve(cwd, PathJoin(a, b)) == Walk(Resolve(cwd, a), Split(b))
  {
    var base := if IsAbsolute(a) then [] else cwd;
    var a' := a[..|a| - 1];
    assert a == a' + "/" by {
      assert a == a' + a[|a| - 1..];
      assert a[|a| - 1..] == "/";
    }
    TrailingSlash(cwd, a);
    assert PathJoin(a, b) == a + b == a' + "/" + b;
    assert (a + b)[0] == a[0];
    SplitAroundSlash(a', b);
    WalkAppend(base, Split(a'), Split(b));
  }

  /** A trailing slash adds nothing to where a path string resolves to. */
  lemma TrailingSlash(cwd: Path, a: string)
    requires a != [] && a[|a| - 1] == '/'
    ensures Resolve(cwd, a) == Walk(if IsAbsolute(a) then [] else cwd, Split(a[..|a| - 1]))
  {
    var base := if IsAbsolute(a) then [] else cwd;
    var a' := a[..|a| - 1];
    assert a == a' + "/" + "";
    SplitAroundSlash(a', "");
    WalkAppend(base, Split(a'), [""]);
  }

  /** `JoinRelative` for a non-empty directory string that does not end in a slash. */
  lemma JoinAddingSlash(cwd: Path, a: string, b: string)
    requires a != [] && a[|a| - 1] != '/' && !IsAbsolute(b)
    ensures Resolve(cwd, PathJoin(a, b)) == Walk(Resolve(cwd, a), Split(b))
  {
    var base := if IsAbsolute(a) then [] else cwd;
    assert PathJoin(a, b) == a + "/" + b;
    SplitAroundSlash(a, b);
    assert IsAbsolute(PathJoin(a, b)) == IsAbsolute(a);
    WalkAppend(base, Split(a), Split(b));
  }

  /**
   * A leading `..` leaves the directory it is joined to (unless the name
   * leads straight back into it): nothing confines it.
   */
  lemma ParentEscapes(cwd: Path, a: string, name: string)
    requires IsPlain(name)
    requires Resolve(cwd, a) != []
    requires name != Resolve(cwd, a)[|Resolve(cwd, a)| - 1]
    ensures var d := Resolve(cwd, a);
            Resolve(cwd, PathJoin(a, "../" + name)) == d[..|d| - 1] + [name]
            && !Under(Resolve(cwd, PathJoin(a, "../" + name)), d)
  {
    var d := Resolve(cwd, a);
    DotDotSplit(name);
    JoinRelative(cwd, a, "../" + name);
    var up := d[..|d| - 1];
    assert Walk(d, ["..", name]) == Walk(up, [name]);
    assert Walk(up, [name]) == Walk(up + [name], []);
    var r := Resolve(cwd, PathJoin(a, "../" + name));
    assert r[|d| - 1] != d[|d| - 1];
  }

  /** `../name` is relative and splits into `..` and `name`. */
  lemma DotDotSplit(name: string)
    requires IsPlain(name)
    ensures Split("../" + name) == ["..", name] && !IsAbsolute("../" + name)
  {
    SplitNoSlash(name);
    SplitNoSlash("..");
    assert "../" + name == ".." + "/" + name;
    SplitAroundSlash("..", name);
  }

  /** The index just past the last slash of `s`, or 0 when there is none. */
  function AfterLastSlash(s: string): (i: nat)
    ensures i <= |s|
    ensures i > 0 ==> s[i - 1] == '/'
    ensures forall k :: i <= k < |s| ==> s[k] != '/'
    decreases |s|
  {
    if s == [] then 0
    else if s[|s| - 1] == '/' then |s|
    else AfterLastSlash(s[..|s| - 1])
  }

  /** `s.rstrip('/')`. */
  function StripTrailingSlashes(s: string): (r: string)
    ensures |r| <= |s| && r == s[..|r|]
    ensures r == [] || r[|r| - 1] != '/'
    ensures forall k :: |r| <= k < |s| ==> s[k] == '/'
    decreases |s|
  {
    if s != [] && s[|s| - 1] == '/' then StripTrailingSlashes(s[..|s| - 1]) else s
  }

  /**
   * `os.path.dirname(s)` of posixpath: everything up to the last slash,
   * with trailing slashes removed unless it is all slashes.
   */
  function Dirname(s: string): (r: string)
    ensures |r| <= |s| && r == s[..|r|]
    ensures '/' in s <==> r != []
  {
    var head := s[..AfterLastSlash(s)];
    if head != [] && exists k :: 0 <= k < |head| && head[k] != '/'
    then StripTrailingSlashes(head)
    else head
  }

  /** Joining a plain name gives a string that ends as the name does. */
  lemma JoinEndsWithName(a: string, name: string)
    requires IsPlain(name)
    ensures var b := PathJoin(a, name);
            b != "" && b[|b| - 1] == name[|name| - 1]
  {
    var b := PathJoin(a, name);
    assert b[|b| - |name|..] == name;
  }

  /** Joining `f/name` is joining `f` and then `name`. */
  lemma JoinNested(a: string, f: string, name: string)
    requires IsPlain(f) && IsPlain(name)
    ensures PathJoin(a, f + "/" + name) == PathJoin(PathJoin(a, f), name)
  {
    var b := PathJoin(a, f);
    assert !IsAbsolute(f + "/" + name) by { assert (f + "/" + name)[0] == f[0]; }
    JoinEndsWithName(a, f);
    if a == [] {
      assert b == f;
    } else if a[|a| - 1] == '/' {
      assert a + (f + "/" + name) == (a + f) + "/" + name;
    } else {
      assert a + "/" + (f + "/" + name) == (a + "/" + f) + "/" + name;
    }
  }

  lemma {:induction false} AfterLastSlashSuffix(x: string, y: string)
    requires x != [] && x[|x| - 1] == '/' && '/' !in y
    ensures AfterLastSlash(x + y) == |x|
    decreases |y|
  {
    if y == [] {
      assert x + y == x;
    } else {
      assert (x + y)[..|x + y| - 1] == x + y[..|y| - 1];
      AfterLastSlashSuffix(x, y[..|y| - 1]);
    }
  }

  /**
   * The directory part of a path joined from a directory string that does
   * not end in a slash and a plain name is that directory string.
   */
  lemma DirnameJoin(b: string, name: string)
    requires b != "" && b[|b| - 1] != '/' && IsPlain(name)
    ensures Dirname(PathJoin(b, name)) == b
  {
    var s := PathJoin(b, name);
    assert s == (b + "/") + name;
    AfterLastSlashSuffix(b + "/", name);
    var head := s[..AfterLastSlash(s)];
    assert head == b + "/";
    assert head[|b| - 1] != '/';
    assert (b + "/")[..|b|] == b;
  }
}

=== FILE: prompt.dfy ===
/**
 * The instruction text the program sends to the language model: a fixed
 * template around the directory, its folder names, its file names with their
 * types and the user's command.
 */
module Prompt {
  import opened Snapshot

  /** `sep.join(items)`. */
  function Join(sep: string, items: seq<string>): string {
    if items == [] then ""
    else if |items| == 1 then items[0]
    else Join(sep, items[..|items| - 1]) + sep + items[|items| - 1]
  }

  /** `sub` appears as a contiguous part of `s`. */
  predicate Occurs(sub: string, s: string)
    decreases |s|
  {
    (|sub| <= |s| && s[..|sub|] == sub) || (s != [] && Occurs(sub, s[1..]))
  }

  lemma {:induction false} OccursBetween(a: string, sub: string, b: string)
    ensures Occurs(sub, a + sub + b)
    decreases |a|
  {
    if a == [] {
      assert (a + sub + b)[..|sub|] == sub;
    } else {
      assert (a + sub + b)[1..] == a[1..] + sub + b;
      OccursBetween(a[1..], sub, b);
    }
  }

  lemma OccursInPart(pre: string, part: string, post: string, a: string, sub: string, b: string)
    requires part == a + sub + b
    ensures Occurs(sub, pre + part + post)
  {
    assert pre + part + post == (pre + a) + sub + (b + post);
    OccursBetween(pre + a, sub, b + post);
  }

  /** Every item of a joined list appears in the joined text. */
  lemma {:induction false} JoinHasItems(sep: string, items: seq<string>, i: nat)
    requires i < |items|
    ensures exists a, b :: Join(sep, items) == a + items[i] + b
    decreases |items|
  {
    if |items| == 1 {
      assert Join(sep, items) == "" + items[i] + "";
    } else if i == |items| - 1 {
      assert Join(sep, items) == Join(sep, items[..|items| - 1]) + sep + items[i] + "";
    } else {
      JoinHasItems(sep, items[..|items| - 1], i);
      var a, b :| Join(sep, items[..|items| - 1]) == a + items[i] + b;
      assert Join(sep, items) == a + items[i] + (b + sep + items[|items| - 1]);
    }
  }

  /** How a file is named in the prompt: `name (type)`. */
  function FileLabel(e: Entry): string {
    e.name + " (" + e.ftype + ")"
  }

  function FileLabels(es: seq<Entry>): (r: seq<string>)
    ensures |r| == |es|
    ensures forall i :: 0 <= i < |es| ==> r[i] == FileLabel(es[i])
  {
    if es == [] then [] else FileLabels(es[..|es| - 1]) + [FileLabel(es[|es| - 1])]
  }

  function FolderLine(folders: seq<Entry>): string {
    if folders == [] then "No folders found." else Join(", ", Names(folders))
  }

  function FileLine(files: seq<Entry>): string {
    if files == [] then "No files found." else Join(", ", FileLabels(files))
  }

  const Intro := "\n    You are a file system assistant that helps organize files in a directory. \n    The current directory is: "
  const BeforeFolders := "\n    \n    Folders in this directory:\n    "
  const BeforeFiles := "\n    \n    Files in this directory:\n    "
  const BeforeCommand := "\n    \n    The user would like to: "
  const Instructions :=
    "\n    \n    Only respond with the exact commands I should execute to fulfill this request.\n"
    + "    Structure your response as a JSON object with:\n"
    + "    1. \"operations\": a list of operations to perform, each with \"action\" (one of: \"create_folder\", \"move\", \"rename\", \"delete\", \"organize_by_type\"), \"source\" and \"destination\" fields\n"
    + "    2. \"explanation\": a simple explanation of what will be done\n"
    + "    \n"
    + "    Only use the files and folders that exist in the provided directory information. Don't reference files or folders that aren't listed.\n"
    + "    "

  /** Four values set between five fixed pieces of text. */
  function Fill(k0: string, v1: string, k1: string, v2: string, k2: string,
                v3: string, k3: string, v4: string, k4: string): string {
    k0 + v1 + k1 + v2 + k2 + v3 + k3 + v4 + k4
  }

  /** The filled text, cut around each of its four values. */
  lemma FillParts(k0: string, v1: string, k1: string, v2: string, k2: string,
                  v3: string, k3: string, v4: string, k4: string)
    ensures var s := Fill(k0, v1, k1, v2, k2, v3, k3, v4, k4);
            s == k0 + v1 + (k1 + v2 + k2 + v3 + k3 + v4 + k4)
            && s == (k0 + v1 + k1) + v2 + (k2 + v3 + k3 + v4 + k4)
            && s == (k0 + v1 + k1 + v2 + k2) + v3 + (k3 + v4 + k4)
            && s == (k0 + v1 + k1 + v2 + k2 + v3 + k3) + v4 + k4
  {
  }

  /** Each value set into the template appears in the text. */
  lemma FillHasValues(k0: string, v1: string, k1: string, v2: string, k2: string,
                      v3: string, k3: string, v4: string, k4: string)
    ensures var s := Fill(k0, v1, k1, v2, k2, v3, k3, v4, k4);
            Occurs(v1, s) && Occurs(v2, s) && Occurs(v3, s) && Occurs(v4, s)
  {
    FillParts(k0, v1, k1, v2, k2, v3, k3, v4, k4);
    OccursBetween(k0, v1, k1 + v2 + k2 + v3 + k3 + v4 + k4);
    OccursBetween(k0 + v1 + k1, v2, k2 + v3 + k3 + v4 + k4);
    OccursBetween(k0 + v1 + k1 + v2 + k2, v3, k3 + v4 + k4);
    OccursBetween(k0 + v1 + k1 + v2 + k2 + v3 + k3, v4, k4);
  }

  /** `suffix` is how `s` ends. */
  predicate EndsWith(s: string, suffix: string) {
    |suffix| <= |s| && s[|s| - |suffix|..] == suffix
  }

  /** The filled text starts with the first value between its neighbours. */
  lemma FillStartsFramed(k0: string, v1: string, k1: string, v2: string, k2: string,
                         v3: string, k3: string, v4: string, k4: string)
    ensures k0 + v1 + k1 <= Fill(k0, v1, k1, v2, k2, v3, k3, v4, k4)
  {
    assert Fill(k0, v1, k1, v2, k2, v3, k3, v4, k4) == (k0 + v1 + k1) + (v2 + k2 + v3 + k3 + v4 + k4);
  }

  /** The filled text, cut around each middle value with its neighbours. */
  lemma FillFramedParts(k0: string, v1: string, k1: string, v2: string, k2: string,
                        v3: string, k3: string, v4: string, k4: string)
    ensures var s := Fill(k0, v1, k1, v2, k2, v3, k3, v4, k4);
            && s == (k0 + v1) + (k1 + v2 + k2) + (v3 + k3 + v4 + k4)
            && s == (k0 + v1 + k1 + v2) + (k2 + v3 + k3) + (v4 + k4)
  {
  }

  /** The second value sits between its neighbours in the filled text. */
  lemma FillSecondFramed(k0: string, v1: string, k1: string, v2: string, k2: string,
                         v3: string, k3: string, v4: string, k4: string)
    ensures Occurs(k1 + v2 + k2, Fill(k0, v1, k1, v2, k2, v3, k3, v4, k4))
  {
    FillFramedParts(k0, v1, k1, v2, k2, v3, k3, v4, k4);
    OccursAt(Fill(k0, v1, k1, v2, k2, v3, k3, v4, k4), k0 + v1, k1 + v2 + k2, v3 + k3 + v4 + k4);
  }

  /** The third value sits between its neighbours in the filled text. */
  lemma FillThirdFramed(k0: string, v1: string, k1: string, v2: string, k2: string,
                        v3: string, k3: string, v4: string, k4: string)
    ensures Occurs(k2 + v3 + k3, Fill(k0, v1, k1, v2, k2, v3, k3, v4, k4))
  {
    FillFramedParts(k0, v1, k1, v2, k2, v3, k3, v4, k4);
    OccursAt(Fill(k0, v1, k1, v2, k2, v3, k3, v4, k4), k0 + v1 + k1 + v2, k2 + v3 + k3, v4 + k4);
  }

  /** The filled text ends with the last value between its neighbours. */
  lemma FillEndsFramed(k0: string, v1: string, k1: string, v2: string, k2: string,
                       v3: string, k3: string, v4: string, k4: string)
    ensures EndsWith(Fill(k0, v1, k1, v2, k2, v3, k3, v4, k4), k3 + v4 + k4)
  {
    assert Fill(k0, v1, k1, v2, k2, v3, k3, v4, k4) == (k0 + v1 + k1 + v2 + k2 + v3) + (k3 + v4 + k4);
    EndsWithTail(k0 + v1 + k1 + v2 + k2 + v3, k3 + v4 + k4);
  }

  lemma OccursAt(s: string, a: string, sub: string, b: string)
    requires s == a + sub + b
    ensures Occurs(sub, s)
  {
    OccursBetween(a, sub, b);
  }

  lemma EndsWithTail(a: string, b: string)
    ensures EndsWith(a + b, b)
  {
    assert (a + b)[|a|..] == b;
  }

  /** With the other values fixed, the last value can be read back from the text. */
  lemma FillDeterminesLast(k0: string, v1: string, k1: string, v2: string, k2: string,
                           v3: string, k3: string, v4: string, w4: string, k4: string)
    requires Fill(k0, v1, k1, v2, k2, v3, k3, v4, k4) == Fill(k0, v1, k1, v2, k2, v3, k3, w4, k4)
    ensures v4 == w4
  {
    var head := k0 + v1 + k1 + v2 + k2 + v3 + k3;
    var s := Fill(k0, v1, k1, v2, k2, v3, k3, v4, k4);
    assert s == head + v4 + k4;
    assert Fill(k0, v1, k1, v2, k2, v3, k3, w4, k4) == head + w4 + k4;
    assert v4 == s[|head|..|head| + |v4|];
  }

  /** The prompt for `command` about `directory` and its snapshot. */
  function BuildPrompt(directory: string, c: Contents, command: string): string {
    Fill(Intro, directory, BeforeFolders, FolderLine(c.folders), BeforeFiles, FileLine(c.files),
         BeforeCommand, command, Instructions)
  }

  /**
   * The prompt names the directory and carries the command word for word:
   * it opens with the directory right after the introduction, and closes
   * with the command between its lead-in and the instructions.
   */
  lemma PromptCarriesRequest(directory: string, c: Contents, command: string)
    ensures Occurs(directory, BuildPrompt(directory, c, command))
    ensures Occurs(command, BuildPrompt(directory, c, command))
    ensures Intro + directory + BeforeFolders <= BuildPrompt(directory, c, command)
    ensures EndsWith(BuildPrompt(directory, c, command), BeforeCommand + command + Instructions)
  {
    var fl, fi := FolderLine(c.folders), FileLine(c.files);
    FillHasValues(Intro, directory, BeforeFolders, fl, BeforeFiles, fi, BeforeCommand, command, Instructions);
    FillStartsFramed(Intro, directory, BeforeFolders, fl, BeforeFiles, fi, BeforeCommand, command, Instructions);
    FillEndsFramed(Intro, directory, BeforeFolders, fl, BeforeFiles, fi, BeforeCommand, command, Instructions);
  }

  /**
   * Every folder of the snapshot, and every file with its type, is named in
   * the prompt; the folder line sits between the folder and file headings,
   * and the file line between the file heading and the command's lead-in.
   */
  lemma PromptListsSnapshot(directory: string, c: Contents, command: string)
    ensures forall i :: 0 <= i < |c.folders| ==> Occurs(c.folders[i].name, BuildPrompt(directory, c, command))
    ensures forall i :: 0 <= i < |c.files| ==> Occurs(FileLabel(c.files[i]), BuildPrompt(directory, c, command))
    ensures c.folders == [] ==> Occurs("No folders found.", BuildPrompt(directory, c, command))
    ensures c.files == [] ==> Occurs("No files found.", BuildPrompt(directory, c, command))
    ensures Occurs(BeforeFolders + FolderLine(c.folders) + BeforeFiles, BuildPrompt(directory, c, command))
    ensures Occurs(BeforeFiles + FileLine(c.files) + BeforeCommand, BuildPrompt(directory, c, command))
  {
    PromptListsFolders(directory, c, command);
    PromptListsFiles(directory, c, command);
  }

  /** The folder half of `PromptListsSnapshot`. */
  lemma PromptListsFolders(directory: string, c: Contents, command: string)
    ensures forall i :: 0 <= i < |c.folders| ==> Occurs(c.folders[i].name, BuildPrompt(directory, c, command))
    ensures c.folders == [] ==> Occurs("No folders found.", BuildPrompt(directory, c, command))
    ensures Occurs(BeforeFolders + FolderLine(c.folders) + BeforeFiles, BuildPrompt(directory, c, command))
  {
    var fi := FileLine(c.files);
    FillSecondFramed(Intro, directory, BeforeFolders, FolderLine(c.folders), BeforeFiles, fi,
                     BeforeCommand, command, Instructions);
    forall i | 0 <= i < |c.folders| ensures Occurs(c.folders[i].name, BuildPrompt(directory, c, command)) {
      SecondHasItems(Intro, directory, BeforeFolders, BeforeFiles, fi, BeforeCommand, command, Instructions,
                     Names(c.folders), i);
    }
    if c.folders == [] {
      FillHasValues(Intro, directory, BeforeFolders, "No folders found.", BeforeFiles, fi, BeforeCommand, command, Instructions);
    }
  }

  /** The file half of `PromptListsSnapshot`. */
  lemma PromptListsFiles(directory: string, c: Contents, command: string)
    ensures forall i :: 0 <= i < |c.files| ==> Occurs(FileLabel(c.files[i]), BuildPrompt(directory, c, command))
    ensures c.files == [] ==> Occurs("No files found.", BuildPrompt(directory, c, command))
    ensures Occurs(BeforeFiles + FileLine(c.files) + BeforeCommand, BuildPrompt(directory, c, command))
  {
    var fl := FolderLine(c.folders);
    FillThirdFramed(Intro, directory, BeforeFolders, fl, BeforeFiles, FileLine(c.files),
                    BeforeCommand, command, Instructions);
    forall i | 0 <= i < |c.files| ensures Occurs(FileLabel(c.files[i]), BuildPrompt(directory, c, command)) {
      ThirdHasItems(Intro, directory, BeforeFolders, fl, BeforeFiles, BeforeCommand, command, Instructions,
                    FileLabels(c.files), i);
    }
    if c.files == [] {
      FillHasValues(Intro, directory, BeforeFolders, fl, BeforeFiles, "No files found.", BeforeCommand, command, Instructions);
    }
  }

  /** Each item of a list joined into the second value of a filled template appears in it. */
  lemma SecondHasItems(k0: string, v1: string, k1: string, k2: string,
                       v3: string, k3: string, v4: string, k4: string, items: seq<string>, i: nat)
    requires i < |items|
    ensures Occurs(items[i], Fill(k0, v1, k1, Join(", ", items), k2, v3, k3, v4, k4))
  {
    var v2 := Join(", ", items);
    FillParts(k0, v1, k1, v2, k2, v3, k3, v4, k4);
    JoinHasItems(", ", items, i);
    var a, b :| v2 == a + items[i] + b;
    OccursInPart(k0 + v1 + k1, v2, k2 + v3 + k3 + v4 + k4, a, items[i], b);
  }

  /** Each item of a list joined into the third value of a filled template appears in it. */
  lemma ThirdHasItems(k0: string, v1: string, k1: string, v2: string, k2: string,
                      k3: string, v4: string, k4: string, items: seq<string>, i: nat)
    requires i < |items|
    ensures Occurs(items[i], Fill(k0, v1, k1, v2, k2, Join(", ", items), k3, v4, k4))
  {
    var v3 := Join(", ", items);
    FillParts(k0, v1, k1, v2, k2, v3, k3, v4, k4);
    JoinHasItems(", ", items, i);
    var a, b :| v3 == a + items[i] + b;
    OccursInPart(k0 + v1 + k1 + v2 + k2, v3, k3 + v4 + k4, a, items[i], b);
  }

  /** Two commands about the same snapshot give the same prompt only if they are the same. */
  lemma PromptDeterminesCommand(directory: string, c: Contents, c1: string, c2: string)
    requires BuildPrompt(directory, c, c1) == BuildPrompt(directory, c, c2)
    ensures c1 == c2
  {
    FillDeterminesLast(Intro, directory, BeforeFolders, FolderLine(c.folders), BeforeFiles, FileLine(c.files),
                       BeforeCommand, c1, c2, Instructions);
  }
}

=== FILE: session.dfy ===
/**
 * The two session-state entries the app keeps between reruns: the selected
 * directory and the operation log. The log only ever grows, by the lines a
 * confirmed plan reported, until the user clears it.
 */
module Session {
  import opened Wrappers

  class SessionState {
    /** `st.session_state.selected_dir`, absent until the app first initializes it. */
    var selectedDir: Option<string>
    /** `st.session_state.file_operations_log`, absent until the app first initializes it. */
    var operationsLog: Option<seq<string>>

    /** A fresh browser session: nothing is set yet. */
    constructor ()
      ensures selectedDir == None && operationsLog == None
    {
      selectedDir := None;
      operationsLog := None;
    }

    /** Both entries are present, as `initialize_app` leaves them. */
    predicate Initialized()
      reads this
    {
      selectedDir.Some? && operationsLog.Some?
    }

    /**
     * `initialize_app`: sets each entry that is missing to its empty value
     * and keeps each one that is already there, so a rerun loses nothing.
     */
    method InitializeApp()
      modifies this
      ensures Initialized()
      ensures selectedDir == (if old(selectedDir).Some? then old(selectedDir) else Some(""))
      ensures operationsLog == (if old(operationsLog).Some? then old(operationsLog) else Some([]))
    {
      if selectedDir.None? {
        selectedDir := Some("");
      }
      if operationsLog.None? {
        operationsLog := Some([]);
      }
    }

    /** Logging the lines of an executed plan: they go after the lines already logged, in order. */
    method LogResults(results: seq<string>)
      requires Initialized()
      modifies this
      ensures Initialized()
      ensures operationsLog == Some(old(operationsLog).value + results)
      ensures selectedDir == old(selectedDir)
    {
      operationsLog := Some(operationsLog.value + results);
    }

    /** "Clear Log": the log is emptied; the selected directory stays. */
    method ClearLog()
      requires Initialized()
      modifies this
      ensures Initialized()
      ensures operationsLog == Some([])
      ensures selectedDir == old(selectedDir)
    {
      operationsLog := Some([]);
    }
  }
}

=== FILE: sizes.dfy ===
/**
 * `format_size`: a byte count shown on the unit ladder B, KB, MB, GB with
 * two decimals.
 *
 * The program divides a float by 1024 until the value is below 1024 or
 * the unit is GB, then prints it with `.2f`. Division by a power of two is
 * exact, and `.2f` rounds the exact value to the nearest hundredth, ties to
 * even; the model does the same with integers.
 */
module Sizes {

  const Units: seq<string> := ["B", "KB", "MB", "GB"]

  function Pow1024(k: nat): (r: nat)
    ensures r >= 1
  {
    if k == 0 then 1 else 1024 * Pow1024(k - 1)
  }

  /**
   * The rung a size ends on when the ladder is climbed from rung `k`: stay
   * while the scaled value is below 1024 or the rung is the last one.
   */
  function UnitFrom(size: nat, k: nat): (u: nat)
    requires k < |Units|
    ensures k <= u < |Units|
    ensures u < |Units| - 1 ==> size < Pow1024(u + 1)
    ensures forall j :: k < j <= u ==> Pow1024(j) <= size
    decreases |Units| - k
  {
    if k == |Units| - 1 || size < Pow1024(k + 1) then k else UnitFrom(size, k + 1)
  }

  function UnitIndex(size: nat): nat {
    UnitFrom(size, 0)
  }

  /**
   * The rung is the first one under which the size is small enough: the
   * value shown is at least 1 (for sizes from 1 byte up) and, below GB,
   * under 1024.
   */
  lemma UnitIndexBounds(size: nat)
    ensures UnitIndex(size) < 3 ==> size < Pow1024(UnitIndex(size) + 1)
    ensures Pow1024(UnitIndex(size)) <= size || size == 0
  {
    var k := UnitIndex(size);
    if k > 0 {
      assert Pow1024(k) <= size;
    }
  }

  /** A bigger file never shows on a lower rung. */
  lemma {:induction false} UnitFromMonotonic(a: nat, b: nat, k: nat)
    requires a <= b && k < |Units|
    ensures UnitFrom(a, k) <= UnitFrom(b, k)
    decreases |Units| - k
  {
    if k < |Units| - 1 && a >= Pow1024(k + 1) {
      UnitFromMonotonic(a, b, k + 1);
    }
  }

  /** `n / d` rounded to the nearest integer, ties to the even one. */
  function RoundHalfEven(n: nat, d: nat): nat
    requires d > 0
  {
    var q, r := n / d, n % d;
    if 2 * r > d then q + 1
    else if 2 * r < d then q
    else if q % 2 == 0 then q
    else q + 1
  }

  /** The rounded quotient is within half a unit of the exact one, and even on a tie. */
  lemma RoundHalfEvenNearest(n: nat, d: nat)
    requires d > 0
    ensures var q := RoundHalfEven(n, d);
            2 * n <= 2 * (q * d) + d && 2 * (q * d) <= 2 * n + d
    ensures var q := RoundHalfEven(n, d);
            (2 * n == 2 * (q * d) + d || 2 * n + d == 2 * (q * d)) ==> q % 2 == 0
  {
    var q0, r := n / d, n % d;
    assert n == q0 * d + r;
    assert (q0 + 1) * d == q0 * d + d;
  }

  function DigitChar(d: nat): char
    requires d < 10
  {
    "0123456789"[d]
  }

  function DigitValue(c: char): int {
    c as int - '0' as int
  }

  /** The decimal digits of `n`, as `str(n)` writes them. */
  function NatText(n: nat): (s: string)
    ensures |s| >= 1
    ensures forall i :: 0 <= i < |s| ==> '0' <= s[i] <= '9'
    ensures n > 0 ==> s[0] != '0'
  {
    if n < 10 then [DigitChar(n)] else NatText(n / 10) + [DigitChar(n % 10)]
  }

  /** The number a string of decimal digits stands for. */
  function DigitsValue(s: string): int
  {
    if s == [] then 0 else 10 * DigitsValue(s[..|s| - 1]) + DigitValue(s[|s| - 1])
  }

  /** Reading back the digits gives the number. */
  lemma {:induction false} NatTextValue(n: nat)
    ensures DigitsValue(NatText(n)) == n
  {
    if n >= 10 {
      NatTextValue(n / 10);
      var s := NatText(n);
      assert s[..|s| - 1] == NatText(n / 10);
    }
  }

  /** `f"{n / d:.2f}"`. */
  function Fixed2(n: nat, d: nat): string
    requires d > 0
  {
    var h := RoundHalfEven(100 * n, d);
    NatText(h / 100) + "." + [DigitChar(h % 100 / 10), DigitChar(h % 10)]
  }

  /** What `format_size` returns for a size in bytes. */
  function SizeText(size: nat): string {
    var k := UnitIndex(size);
    Fixed2(size, Pow1024(k)) + " " + Units[k]
  }

  lemma PowValues()
    ensures Pow1024(1) == 1024 && Pow1024(2) == 1048576 && Pow1024(3) == 1073741824
  {
  }

  /** An empty file is shown in bytes. */
  lemma SizeTextZero()
    ensures SizeText(0) == "0.00 B"
  {
    PowValues();
    assert UnitIndex(0) == 0;
    assert RoundHalfEven(0, 1) == 0;
    assert NatText(0) == "0";
  }

  /** One and a half kibibytes. */
  lemma SizeTextKilo()
    ensures SizeText(1536) == "1.50 KB"
  {
    PowValues();
    assert UnitIndex(1536) == 1;
    var h := RoundHalfEven(153600, 1024);
    assert 153600 / 1024 == 150 && 153600 % 1024 == 0;
    assert h == 150;
    assert NatText(1) == "1";
  }

  /** One gibibyte. */
  lemma SizeTextGiga()
    ensures SizeText(1073741824) == "1.00 GB"
  {
    PowValues();
    assert UnitFrom(1073741824, 2) == 3;
    assert UnitIndex(1073741824) == 3;
    assert 107374182400 / 1073741824 == 100 && 107374182400 % 1073741824 == 0;
    assert RoundHalfEven(107374182400, 1073741824) == 100;
    assert NatText(1) == "1";
  }

  /** The loop of `format_size`, with the running quotient kept as a divisor. */
  method FormatSize(size: nat) returns (s: string)
    ensures s == SizeText(size)
  {
    var i := 0;
    var divisor := 1;
    while i < |Units| - 1 && size >= 1024 * divisor
      invariant 0 <= i < |Units|
      invariant divisor == Pow1024(i)
      invariant UnitFrom(size, i) == UnitIndex(size)
    {
      divisor := divisor * 1024;
      i := i + 1;
    }
    s := Fixed2(size, divisor) + " " + Units[i];
  }
}

=== FILE: snapshot.dfy ===
/**
 * `list_directory_contents`: the snapshot of one directory that the page
 * shows and the prompt describes. Sub-directories go to `folders`, regular
 * files to `files`, in listing order; anything else is skipped. A directory
 * that cannot be listed yields two empty lists and a message.
 */
module Snapshot {
  import opened Wrappers
  import opened Paths
  import opened FileSystem
  import opened FileTypes
  import opened Sizes

  /** One row of the snapshot: `{"name": …, "type": …, "size": …}`. */
  datatype Entry = Entry(name: string, ftype: string, size: string)

  datatype Contents = Contents(folders: seq<Entry>, files: seq<Entry>)

  /** The names of the rows, in order. */
  function Names(es: seq<Entry>): (r: seq<string>)
    ensures |r| == |es|
    ensures forall i :: 0 <= i < |es| ==> r[i] == es[i].name
  {
    if es == [] then [] else Names(es[..|es| - 1]) + [es[|es| - 1].name]
  }

  /** The snapshot built from the listed names `names` of `directory`. */
  function Classify(t: Tree, cwd: Path, directory: string, mime: string -> Option<string>,
                    names: seq<string>): (r: Contents)
    ensures forall n :: n in Names(r.files) <==>
              n in names && OsIsFile(t, cwd, PathJoin(directory, n))
    ensures forall n :: n in Names(r.folders) <==>
              n in names && !OsIsFile(t, cwd, PathJoin(directory, n)) && OsIsDir(t, cwd, PathJoin(directory, n))
    ensures forall e :: e in r.folders ==> e.ftype == "folder" && e.size == ""
    ensures forall e :: e in r.files ==>
              var p := PathJoin(directory, e.name);
              && OsIsFile(t, cwd, p)
              && e.ftype == GetFileType(mime, p)
              && e.size == SizeText(t[Resolve(cwd, p)].size)
  {
    if names == [] then Contents([], [])
    else
      var init := names[..|names| - 1];
      var c := Classify(t, cwd, directory, mime, init);
      var item := names[|names| - 1];
      assert names == init + [item];
      OneMoreFile(t, cwd, directory, mime, init, c, item);
      OneMoreFolder(t, cwd, directory, mime, init, c, item);
      ClassifyOne(t, cwd, directory, mime, c, item)
  }

  /** The files of one more turn of the loop are those of the turns before, and `item` if it is a file. */
  lemma OneMoreFile(t: Tree, cwd: Path, directory: string, mime: string -> Option<string>,
                    init: seq<string>, c: Contents, item: string)
    requires forall n :: n in Names(c.files) <==> n in init && OsIsFile(t, cwd, PathJoin(directory, n))
    requires forall e :: e in c.files ==>
               var p := PathJoin(directory, e.name);
               && OsIsFile(t, cwd, p)
               && e.ftype == GetFileType(mime, p)
               && e.size == SizeText(t[Resolve(cwd, p)].size)
    ensures var r := ClassifyOne(t, cwd, directory, mime, c, item);
            && (forall n :: n in Names(r.files) <==> n in init + [item] && OsIsFile(t, cwd, PathJoin(directory, n)))
            && forall e :: e in r.files ==>
                 var p := PathJoin(directory, e.name);
                 && OsIsFile(t, cwd, p)
                 && e.ftype == GetFileType(mime, p)
                 && e.size == SizeText(t[Resolve(cwd, p)].size)
  {
    var r := ClassifyOne(t, cwd, directory, mime, c, item);
    if OsIsFile(t, cwd, PathJoin(directory, item)) {
      assert Names(r.files) == Names(c.files) + [item];
    } else {
      assert r.files == c.files;
    }
  }

  /** The folders of one more turn of the loop are those of the turns before, and `item` if it is a directory. */
  lemma OneMoreFolder(t: Tree, cwd: Path, directory: string, mime: string -> Option<string>,
                      init: seq<string>, c: Contents, item: string)
    requires forall n :: n in Names(c.folders) <==>
               n in init && !OsIsFile(t, cwd, PathJoin(directory, n)) && OsIsDir(t, cwd, PathJoin(directory, n))
    requires forall e :: e in c.folders ==> e.ftype == "folder" && e.size == ""
    ensures var r := ClassifyOne(t, cwd, directory, mime, c, item);
            && (forall n :: n in Names(r.folders) <==>
                  n in init + [item] && !OsIsFile(t, cwd, PathJoin(directory, n)) && OsIsDir(t, cwd, PathJoin(directory, n)))
            && forall e :: e in r.folders ==> e.ftype == "folder" && e.size == ""
  {
    var r := ClassifyOne(t, cwd, directory, mime, c, item);
    var p := PathJoin(directory, item);
    if !OsIsFile(t, cwd, p) && OsIsDir(t, cwd, p) {
      assert Names(r.folders) == Names(c.folders) + [item];
    } else {
      assert r.folders == c.folders;
    }
  }

  /** One turn of the loop: the row for `item`, if it is a file or a directory. */
  function ClassifyOne(t: Tree, cwd: Path, directory: string, mime: string -> Option<string>,
                       c: Contents, item: string): Contents
  {
    var p := PathJoin(directory, item);
    if OsIsFile(t, cwd, p) then
      Contents(c.folders, c.files + [Entry(item, GetFileType(mime, p), SizeText(t[Resolve(cwd, p)].size))])
    else if OsIsDir(t, cwd, p) then
      Contents(c.folders + [Entry(item, "folder", "")], c.files)
    else c
  }

  /** What `list_directory_contents(directory)` returns. */
  ghost function ListDirectoryContentsSpec(t: Tree, cwd: Path, directory: string,
                                           mime: string -> Option<string>): Contents
  {
    match OsListDir(t, cwd, directory)
    case Err(_) => Contents([], [])
    case Ok(names) => Classify(t, cwd, directory, mime, names)
  }

  /**
   * The snapshot of a directory is a partition of its entries: every
   * sub-directory is listed among the folders, with type "folder" and
   * no size; every regular file among the files, with its type and
   * formatted size; nothing else is listed.
   */
  lemma SnapshotPartition(t: Tree, cwd: Path, directory: string, mime: string -> Option<string>)
    requires WellFormed(t) && directory != ""
    requires IsDirAt(t, Resolve(cwd, directory))
    ensures var c := ListDirectoryContentsSpec(t, cwd, directory, mime);
            var d := Resolve(cwd, directory);
            && (forall n :: n in Names(c.folders) <==> d + [n] in t && t[d + [n]].Dir?)
            && (forall n :: n in Names(c.files) <==> d + [n] in t && t[d + [n]].File?)
            && (forall e :: e in c.folders ==> e.ftype == "folder" && e.size == "")
            && (forall e :: e in c.files ==>
                  e.ftype == GetFileType(mime, PathJoin(directory, e.name))
                  && e.size == SizeText(t[d + [e.name]].size))
  {
    var names := OsListDir(t, cwd, directory).value;
    ClassifyPartition(t, cwd, directory, mime, names);
  }

  /** `Classify` over exactly the children of a directory partitions them. */
  lemma ClassifyPartition(t: Tree, cwd: Path, directory: string, mime: string -> Option<string>,
                          names: seq<string>)
    requires WellFormed(t)
    requires forall n :: n in names <==> Resolve(cwd, directory) + [n] in t
    ensures var c := Classify(t, cwd, directory, mime, names);
            var d := Resolve(cwd, directory);
            && (forall n :: n in Names(c.folders) <==> d + [n] in t && t[d + [n]].Dir?)
            && (forall n :: n in Names(c.files) <==> d + [n] in t && t[d + [n]].File?)
            && (forall e :: e in c.files ==> e.size == SizeText(t[d + [e.name]].size))
  {
    var d := Resolve(cwd, directory);
    var c := Classify(t, cwd, directory, mime, names);
    forall n ensures n in Names(c.folders) <==> d + [n] in t && t[d + [n]].Dir? {
      if d + [n] in t {
        ChildPath(t, cwd, directory, n);
      }
    }
    forall n ensures n in Names(c.files) <==> d + [n] in t && t[d + [n]].File? {
      if d + [n] in t {
        ChildPath(t, cwd, directory, n);
      }
    }
    forall e | e in c.files
      ensures e.size == SizeText(t[d + [e.name]].size)
    {
      var i :| 0 <= i < |c.files| && c.files[i] == e;
      assert Names(c.files)[i] == e.name;
      ChildPath(t, cwd, directory, e.name);
    }
  }

  /** One more turn of the loop classifies one more name. */
  lemma ClassifyNext(t: Tree, cwd: Path, directory: string, mime: string -> Option<string>,
                     names: seq<string>, i: nat)
    requires i < |names|
    ensures Classify(t, cwd, directory, mime, names[..i + 1])
         == ClassifyOne(t, cwd, directory, mime, Classify(t, cwd, directory, mime, names[..i]), names[i])
  {
    assert names[..i + 1][..i] == names[..i];
  }

  /** A listed name, joined to the directory, names the entry below it. */
  lemma ChildPath(t: Tree, cwd: Path, directory: string, n: string)
    requires WellFormed(t) && Resolve(cwd, directory) + [n] in t
    ensures Resolve(cwd, PathJoin(directory, n)) == Resolve(cwd, directory) + [n]
    ensures OsIsFile(t, cwd, PathJoin(directory, n)) <==> t[Resolve(cwd, directory) + [n]].File?
    ensures OsIsDir(t, cwd, PathJoin(directory, n)) <==> t[Resolve(cwd, directory) + [n]].Dir?
  {
    var d := Resolve(cwd, directory);
    assert PlainPath(d + [n]);
    assert (d + [n])[|d|] == n;
    JoinPlainName(cwd, directory, n);
  }

  /** The loop of `list_directory_contents`, reading the disk. */
  method ListDirectoryContents(disk: Disk, directory: string, mime: string -> Option<string>)
    returns (c: Contents, warning: Option<string>)
    ensures c == ListDirectoryContentsSpec(disk.nodes, disk.cwd, directory, mime)
    ensures OsListDir(disk.nodes, disk.cwd, directory).Ok? <==> warning == None
    ensures OsListDir(disk.nodes, disk.cwd, directory).Err? ==>
              warning == Some("Error accessing directory: " + ErrorText(OsListDir(disk.nodes, disk.cwd, directory).error))
  {
    var listing := disk.ListDir(directory);
    if listing.Err? {
      return Contents([], []), Some("Error accessing directory: " + ErrorText(listing.error));
    }
    var names := listing.value;
    var folders, files := [], [];
    for i := 0 to |names|
      invariant Contents(folders, files) == Classify(disk.nodes, disk.cwd, directory, mime, names[..i])
    {
      var item := names[i];
      var itemPath := PathJoin(directory, item);
      ghost var before := Contents(folders, files);
      if disk.IsFile(itemPath) {
        var fileType := GetFileType(mime, itemPath);
        var size := FormatSize(disk.Size(itemPath));
        files := files + [Entry(item, fileType, size)];
      } else if disk.IsDir(itemPath) {
        folders := folders + [Entry(item, "folder", "")];
      }
      assert Contents(folders, files) == ClassifyOne(disk.nodes, disk.cwd, directory, mime, before, item);
      ClassifyNext(disk.nodes, disk.cwd, directory, mime, names, i);
    }
    assert names[..|names|] == names;
    c, warning := Contents(folders, files), None;
  }
}

=== FILE: wrappers.dfy ===
/** Failure-carrying values shared by the other modules. */
module Wrappers {

  /** A value that may be missing (Python's `None`). */
  datatype Option<+T> = None | Some(value: T)

  /** The outcome of a call that may raise: its value, or the error it raised. */
  datatype Result<+T, +E> = Ok(value: T) | Err(error: E)
}
